=== FILE: README.md ===
# gotool bootstrap core, modelled in Dafny

gotool is a Go toolkit that a service uses to start up. It provides the
following parts:

- a runtime-environment manager: the current deployment stage, the stages
  that may be selected, a one-way lock, and change listeners;
- a layered configuration resolver over TOML files, searched under ordered
  roots;
- a remote override store that holds the raw text of Nacos documents;
- keyed client caches for Gorm, Redis and Elasticsearch;
- the entry points `Gorm()`, `Elastic()` and `Redis()`, which pick a logical
  name, route to the local or remote configuration and derive the cache key;
- the pure helpers of the Nacos service (the `dataId:group` entry list, the
  local IPv4 address, the healthy-instance URI);
- the pure helpers of the logging hooks (package-relative caller paths,
  frame filtering, hook levels, the error-notice gate, the daily file name).

The model is a functional state machine. Every entity is an immutable
datatype. Every public Go method is one pure transition that returns the next
state together with what the method returns. Each call is treated as one
atomic step, so the mutexes and the second probe of the double-checked
lookups have nothing left to model.

A Go panic becomes the `Panic` case of `Wrappers.Outcome`. This covers calls
on a nil `*viper.Viper`, failed type assertions on configuration fields, and
`Session` on a nil `*gorm.DB`. A nil pointer becomes `Option.None`.

Everything outside the process is a parameter:

- the file system (a map from path to the parse of the file there);
- the TOML parser;
- the MD5-of-JSON digest of a table;
- whether `gorm.Open`, `DB()` and `elastic.NewClient` succeed;
- the Redis ping;
- the Nacos SDK (naming client, config clients, fetched text, instance
  selection);
- the interface address list;
- the call stack;
- the date.

Modules:

- `Wrappers`: the `Option` and `Outcome` types.
- `Text`: split and join, counting, substrings, replacement and decimal
  rendering, with their round trips.
- `Environment`: the environment manager.
- `Config`: the configuration resolver.
- `RemoteConfig`: the remote store.
- `KeyedCache`: get-or-create.
- `GormHelper`, `RedisHelper`, `ElasticHelper`: the client managers.
- `Routing`: the entry points.
- `NacosService`: the Nacos service helpers.
- `LogHooks`: the logging hooks.

Behaviours of the code worth noting:

- `set` checks the lock before the registration, so a locked manager reports
  `ErrLocked` even for an unknown stage.
- A failed client construction (nil) is stored in the Gorm and Elasticsearch
  caches and served on later hits.
- The "override" lookup of `Cfg` uses the same stage as the base lookup
  (sys/config.go:50 and :62). It therefore finds the same file, and the
  merged document equals the base document (`Config.CfgLayersCoincide`).
- Two stages are involved. sys/gorm.go imports the `environment` package,
  whose default manager is separate from the `pkg/environment` manager used by
  sys/elastic.go and by the resolver through `Env()`. `Routing.System` carries
  both stages: `gormEnv` for the Gorm routing decision and `env` for
  everything else. sys/config.go types the stage parameter of `getConfigFile`
  with the `environment` package while `Env()` returns a `pkg/environment`
  value. The model keeps the two stages apart and passes `env` to the file
  search.

## Model

| member | source | states |
|---|---|---|
| Environment.String | environment/environment.go:27 | the text of a stage gives back that stage |
| Environment.Is | environment/environment.go:31 | two stages are the same exactly when their texts are equal |
| Environment.In | environment/environment.go:35-42 | true exactly when some element of the list equals the stage; false for the empty list |
| Environment.BuiltInDistinct | environment/environment.go:6-17 | the four built-in stages are pairwise different |
| Environment.DefaultManager | environment/environment.go:21 | the process-wide manager starts at Development, unlocked, with Production registered |
| Environment.New | pkg/environment/manager.go:73-78 | Development is current, nothing is locked, nobody listens, and the four built-in stages are registered in order |
| Environment.NewEmpty | pkg/environment/manager.go:83-85 | the empty stage is current, nothing is registered, and nobody listens |
| Environment.IsCurrent | pkg/environment/manager.go:107-109 | true exactly when the current stage has the given text |
| Environment.InCurrent | pkg/environment/manager.go:113-115 | true exactly when the current stage is in the list |
| Environment.Register | pkg/environment/manager.go:120-127 | a registered stage leaves the manager unchanged; otherwise exactly that stage is appended |
| Environment.Registered | pkg/environment/manager.go:130-135 | true exactly when the stage is in the registered list |
| Environment.Lock | pkg/environment/manager.go:139-144 | the manager is locked afterwards and its stage, registrations and listeners are kept |
| Environment.Notify | pkg/environment/manager.go:187-189 | each listener is called exactly once, in the order added, with (new, old) |
| Environment.Set | pkg/environment/manager.go:176-192 | locked gives ErrLocked with no change, checked before registration; unregistered gives ErrInvalidEnv with no change; re-selecting the current stage succeeds and calls nobody; a change makes the stage current and calls every listener once, in order, with (new, old) |
| Environment.SetAndLock | pkg/environment/manager.go:163-173 | succeeds exactly when unlocked and registered, and then the manager is locked at that stage; re-selecting the current stage calls nobody, while a change calls every listener once, in order, with (new, old); on error the manager is unchanged and nobody is called |
| Environment.Listen | pkg/environment/manager.go:196-202 | nil is ignored; a listener is pushed last; nothing else changes |
| Environment.UnListen | pkg/environment/manager.go:206-219 | with listeners present, the last one added is removed and returned, and the rest is kept; with none, nil and no change |
| Environment.UnListenAll | pkg/environment/manager.go:223-232 | every listener is returned in the order added and none remain |
| Environment.RegisterIdempotent | pkg/environment/manager.go:120-127 | registering twice equals registering once, and the stage is registered afterwards |
| Environment.SetThenGet | pkg/environment/manager.go:184-190 | after a successful Set, Get returns that stage, and setting it again calls nobody |
| Environment.LockedRefusesEverySet | pkg/environment/manager.go:177-179 | a locked manager answers every Set and SetAndLock with ErrLocked and is left exactly as it was |
| Environment.LockIdempotent | pkg/environment/manager.go:139-144 | locking twice equals locking once |
| Environment.ListenUnListen | pkg/environment/manager.go:196-219 | pushing a listener and popping one gives back the manager and that listener |
| Environment.ListenAllAppends | pkg/environment/manager.go:196-202 | pushing listeners one by one appends them, in order, after those already there |
| Environment.ListenAllThenUnListenAll | pkg/environment/manager.go:196-232 | listeners pushed one by one come back from UnListenAll in the order they were pushed |
| Environment.LockIsPermanent | pkg/environment/manager.go:139-192 | once locked, any sequence of public calls leaves the manager locked at the same stage |
| Environment.RegisteredOnlyGrows | pkg/environment/manager.go:120-192 | the registered list only grows under any call sequence, and a stage switched to is always a registered one |
| Config.GetString | sys/gorm.go:12 | on a nil document it panics; a present string is returned as it is; a missing key gives "" |
| Config.GetInt | sys/gorm_helper.go:34 | on a nil document it panics; a missing key gives 0; a stored number is returned as it is; a boolean gives 1 or 0 |
| Config.GetStringMap | sys/gorm.go:19-24 | on a nil document it panics; a non-empty result is the table stored at the key |
| Config.AsString | sys/redis_helper.go:61-62 | a string type assertion succeeds exactly when a string is stored, and yields that string |
| Config.AsInt64 | sys/redis_helper.go:63-69 | an int64 type assertion succeeds exactly when a number is stored, and yields that number |
| Config.InitConfig | sys/config.go:20-28 | without arguments the roots are "../../configs", "configs", "../configs" in that order; otherwise the given roots; the cache starts empty |
| Config.ConfigFilePath | sys/config.go:33 | a candidate path is never empty |
| Config.FindConfigFile | sys/config.go:30-40 | "" exactly when no candidate exists; otherwise the candidate under the first root, in order, whose file exists |
| Config.ReadInConfig | sys/config.go:51-52 | a non-empty existing path yields exactly that file's parse; an empty or missing path is a failed read |
| Config.Merge | sys/config.go:57-70 | every base key is present as a default, and an override key shadows it |
| Config.Cfg | sys/config.go:42-73 | a cached name is returned without reading; with no file found, or a failed read, the result is nil and nothing is cached; a success is cached under exactly that name |
| Config.ResetCfgKey | sys/config.go:75-81 | only that name is evicted, every other entry is kept, and an absent name changes nothing |
| Config.CfgLayersCoincide | sys/config.go:50-62 | both lookups find the same file, so a fresh resolution yields exactly the parse of the first existing candidate |
| Config.CfgCaches | sys/config.go:43-45 | after a successful resolution, resolving the name again returns the same document and changes nothing, whatever the stage or files are then |
| Config.ResetThenCfgRereads | sys/config.go:75-81 | after eviction, the next resolution reads the files again instead of returning the evicted document |
| RemoteConfig.LookupRemote | sys/nacos.go:18-41 | an empty or unknown name gives nil and leaves the cache alone; a cached document is returned without parsing; otherwise the text is parsed, and only a successful parse is cached under the name |
| RemoteConfig.SelectName | sys/nacos.go:12-17 | the first argument when one is given, else the default |
| RemoteConfig.Nacos | sys/nacos.go:11-42 | with an argument, the lookup of that name, whose cache becomes the new cache; without one, it panics exactly when the app document is nil, and otherwise it is the lookup of the app document's nacos.defaultDataId over the cache left by resolving "app"; the roots are kept |
| RemoteConfig.RootNacos | nacos.go:11-42 | the same lookup and cache rule over the root package's cache; a failed lookup leaves that cache unchanged |
| RemoteConfig.LookupCachesSuccess | sys/nacos.go:28-41 | a successful lookup, repeated, returns the same document without parsing, whatever the parser |
| RemoteConfig.SharedCacheServesResolver | sys/nacos.go:28-40 | a remote document cached under a name is what the file resolver then returns for that name |
| KeyedCache.GetOrCreate | sys/redis_helper.go:36-56 | a hit returns the stored client unchanged; a miss stores the built client under the key and returns it; a panicking build propagates |
| KeyedCache.Clear | sys/elastic_helper.go:82-88 | no key remains |
| KeyedCache.ClearForcesRebuild | sys/elastic_helper.go:82-88 | after Clear, a lookup builds again |
| KeyedCache.FinalKeepsEntries | sys/redis_helper.go:39-51 | an entry, once present, never changes however many lookups follow |
| KeyedCache.BuildOncePerKey | sys/redis_helper.go:36-56 | over any request sequence, a request builds exactly when its key was neither present nor asked for earlier, and every caller of a key gets the client left in the map |
| GormHelper.NewGormClientManager | sys/gorm_helper.go:20-27 | no clients, and log level 4 |
| GormHelper.MysqlDsn | sys/gorm_helper.go:139-148 | for well-typed fields, user:pass@tcp(host:port)/db?charset=…&parseTime=True&loc=Local&timeout=5s with the port in decimal |
| GormHelper.PostgresDsn | sys/gorm_helper.go:150-162 | whenever host, username, password and database are strings and port a number (charset is not read), the host, user, password, dbname and port settings with a 5 s timeout, sslmode off and Asia/Shanghai time |
| GormHelper.NewDialector | sys/gorm_helper.go:101-111 | a dialector exists exactly for the drivers "postgres" and "mysql", carrying that driver's DSN |
| GormHelper.NewInstance | sys/gorm_helper.go:100-137 | nil for an unknown driver or a failed open; a client carries the config's dialector and the requested level; when no *sql.DB is available the client keeps the driver's default pool; when it is available, it panics exactly when max_idle_conn or max_conn is not a number, and otherwise the pool limits are those two numbers with a 30 s lifetime |
| GormHelper.BuildThenSessionIsBuildAtLevel | sys/gorm_helper.go:42-70 | building at one level and re-levelling the session equals building at the live level: same panics, same nil, same client |
| GormHelper.Session | sys/gorm_helper.go:42-44 | a re-levelled session is the same connection at the new level; a nil client panics |
| GormHelper.Get | sys/gorm_helper.go:30-71 | a hit at the same level returns the stored client unchanged; a hit at another level replaces it with the same connection at the live level and records that level, panicking on a stored nil; a miss builds once at the manager's level and stores the result, even nil |
| GormHelper.Clear | sys/gorm_helper.go:165-171 | no client remains and the level is kept |
| GormHelper.HitIgnoresConfig | sys/gorm_helper.go:35-48 | on a hit neither the configuration nor the driver plays a part |
| GormHelper.RefreshKeepsConnection | sys/gorm_helper.go:35-48 | a refreshed client keeps its dialector and pool at the live level, and a second call at that level changes nothing |
| GormHelper.OtherKeysKeepStaleLevel | sys/gorm_helper.go:34-48 | the level is tracked per manager: after one key is refreshed, another key's client stays at the old level |
| GormHelper.FailedBuildIsCached | sys/gorm_helper.go:66-70 | a nil from a failed build is stored and served on later hits, and a level change on such a hit panics |
| GormHelper.RewriteSql | sys/gorm_helper.go:76-79 | every comma, quote, backquote and equals sign becomes 分, and every other character is kept in place |
| GormHelper.BeforeUpdate | sys/gorm_helper.go:73-97 | the insert is prepared exactly when the statement mentions ww_client_staff_union and not ww_temp_id, with the rewritten SQL as its argument |
| GormHelper.RewritePreservesContains | sys/gorm_helper.go:85 | the rewrite neither creates nor removes an occurrence of a pattern free of the replaced characters, so testing the rewritten text equals testing the original |
| RedisHelper.NewRedisClientManager | sys/redis_helper.go:28-33 | no connections |
| RedisHelper.ShowDebug | sys/redis_helper.go:19-21 | sets the logging flag to the argument and keeps the pool |
| RedisHelper.Scale | sys/redis_helper.go:66-69 | a duration that fits in 64 bits is exactly the count times the unit |
| RedisHelper.Options | sys/redis_helper.go:59-70 | succeeds exactly when every field has its asserted type; the address is addr:port in decimal, idle time and lifetime are in seconds, the retry backoff is in milliseconds, and the other fields are copied |
| RedisHelper.NewInstance | sys/redis_helper.go:59-91 | a connection wrapping a client with the derived options and logging off, whenever the options can be derived |
| RedisHelper.Get | sys/redis_helper.go:36-56 | a hit returns the stored connection and ignores the configuration; a miss stores and returns a connection built from the configuration |
| RedisHelper.PingIgnored | sys/redis_helper.go:73-90 | a failed ping does not change what is built |
| RedisHelper.DurationsExact | sys/redis_helper.go:66-69 | for values in range, idle time is value × 10^9 ns and backoff is value × 10^6 ns |
| RedisHelper.SecondGetSameConn | sys/redis_helper.go:49-55 | a later Get of a name returns the connection stored by the first, whatever configuration is passed |
| ElasticHelper.NewEsClientManager | sys/elastic_helper.go:19-24 | no clients |
| ElasticHelper.Settings | sys/elastic_helper.go:50-65 | the URLs are the addresses string cut at every comma, in order: one more piece than commas, joining them back gives the string, and no piece holds a comma; user and password are the asserted strings |
| ElasticHelper.NewInstance | sys/elastic_helper.go:50-79 | a client exactly when the library connects with the derived settings, nil otherwise |
| ElasticHelper.Get | sys/elastic_helper.go:27-47 | a hit returns the stored client; a miss stores and returns exactly what NewInstance builds from the configuration, nil when connecting failed |
| ElasticHelper.Clear | sys/elastic_helper.go:82-88 | no client remains |
| ElasticHelper.FailureIsCached | sys/elastic_helper.go:43-46 | after a failed build, every later Get of the name returns nil without trying again |
| Routing.AppString | sys/gorm.go:12-16 | the app document's value for the key; panics when the app document is nil; the cache only grows |
| Routing.RemoteTable | sys/gorm.go:23-25 | the table from the remote "database.toml"; panics when that document is unavailable |
| Routing.LocalTable | sys/gorm.go:18-22 | the table from the local "db" document; panics when it is nil |
| Routing.SourceConfig | sys/gorm.go:17-25 | outside Development, the remote table; in Development, the local table unless it is empty, then the remote one |
| Routing.Resolve | sys/elastic.go:12-25 | the name is the first argument, else the app default; its table comes from the routing; the cache only grows |
| Routing.Gorm | sys/gorm.go:11-30 | the client returned is the one stored under name + digest; a new key is built from its table; a cached connection keeps its dialector; the other managers are untouched; the live level is MysqlDebugLevel of the default remote document, so a missing document panics, and the result is the database manager's Get at that level |
| Routing.GormHitTakesLiveLevel | sys/gorm_helper.go:34-48 | on a hit the database manager ends at the live level and, when that differs from its own, the client returned is at the live level; a miss keeps the manager's level |
| Routing.Elastic | sys/elastic.go:11-28 | keyed by the plain name: a cached name returns its client whatever its table is now; a new name stores the client built from its table |
| Routing.Redis | sys/redis.go:7-18 | the table always comes from the remote "database.toml"; the result is the pool of the connection stored under the plain name, built from that table on a miss |
| Routing.GormKeyInjective | sys/gorm.go:26-28 | with 32-character digests, keys are equal exactly when the names and the digests are equal, so a changed table gets a fresh entry |
| Routing.RemoteTableStable | sys/nacos.go:28-30 | a remote table read once is read again, unchanged, from any state that kept the cache |
| Routing.LocalTableStable | sys/config.go:43-45 | a local table read once is read again, unchanged, from any state that kept the cache |
| Routing.SourceConfigStable | sys/gorm.go:17-25 | a routed table, once read, is read again unchanged from any later state that kept the cache |
| Routing.ElasticSecondCallHits | sys/elastic.go:11-28 | a second Elastic call with the same arguments returns the same client |
| Routing.NonDevelopmentIgnoresLocal | sys/elastic.go:23-25 | outside Development the local files play no part |
| NacosService.ParseEntry | service/nacos_service.go:66-70 | an entry is used exactly when it has one colon; it is then the data-id and group it was written from, neither holding a colon |
| NacosService.ParseEntryRoundTrip | service/nacos_service.go:66-70 | a written "dataId:group" reads back as that entry |
| NacosService.LoadCharacterized | service/nacos_service.go:65-96 | the loop runs through every well-formed entry when all succeed; it stops at the first failing config client and keeps the entries before it; a failed fetch panics at the first such entry; the last entry per data-id wins |
| NacosService.CharacterizedAfterRunning | service/nacos_service.go:65-96 | one more entry after a still-running loop keeps the characterisation: skipped when malformed, an early return on a failed client, a panic on a failed fetch, otherwise stored with the latest text winning |
| NacosService.CharacterizedAfterHalt | service/nacos_service.go:72-80 | once the loop has returned early or panicked, one more entry keeps the characterisation |
| NacosService.LoadSkipsMalformed | service/nacos_service.go:66-70 | a malformed entry changes nothing, and processing continues |
| NacosService.LoadHalts | service/nacos_service.go:72-80 | once the loop has returned early or panicked, later entries change nothing |
| NacosService.LatestWinsStep | service/nacos_service.go:90-96 | storing a fetched text keeps every data-id bound to the text of its last watched entry |
| NacosService.InitClient | service/nacos_service.go:30-85 | a nil app document or a failed naming client panics; otherwise the store starts empty and the result is that of the loop over the entries |
| NacosService.OnChange | service/nacos_service.go:101-106 | the cached document for the data-id is evicted, all other entries are kept, and the new text is stored |
| NacosService.OnChangeThenLookup | service/nacos_service.go:101-106 | after a change, looking the data-id up returns the parse of the new text |
| NacosService.To4 | service/nacos_service.go:122 | a 4-byte result exactly for 4-byte and IPv4-mapped 16-byte addresses |
| NacosService.DottedQuadRoundTrip | service/nacos_service.go:123 | the dotted rendering splits into four digit strings whose values are the four bytes |
| NacosService.GetLocalIp | service/nacos_service.go:113-127 | a listing error is passed on; otherwise the first non-loopback IPv4 network address, in order, in dotted form; "" with "no ip found" exactly when none qualifies |
| NacosService.GetUri | service/nacos_service.go:173-182 | a failed selection gives "" and the error; otherwise "http://ip:" then the port in decimal with no leading zero, which reads back as the port, then the router |
| NacosService.GetViper | service/nacos_service.go:184-193 | the parse of the text in the given type, or an empty document flagged as failed |
| NacosService.GetTomlViper | service/nacos_service.go:195-197 | GetViper with type "toml", the same parse the remote store uses |
| LogHooks.ScanFromCharacterized | sys/log.go:106-114 | the scan from any index with fewer than two slashes seen ends with the whole path or with the part after a slash that leaves exactly one slash |
| LogHooks.PackagePathCharacterized | sys/log.go:103-114 | fewer than two slashes past the first character keeps the path; otherwise it is cut after the second slash from the right, keeping one slash |
| LogHooks.GetCaller | sys/log.go:98-116 | a missing frame gives "" and line 0; a present frame gives its package-relative path and keeps its line |
| LogHooks.FindCaller | sys/log.go:63-96 | exactly the eleven frames skip .. skip+10 are examined, and each kept one is appended in order |
| LogHooks.AppendFrame | sys/log.go:72-93 | one frame is appended in its rendered form, or nothing when its path starts with a filtered prefix |
| LogHooks.RenderedWindow | sys/log.go:71-72 | only the frames in the window affect the result |
| LogHooks.RenderedEmptyWhenAllSkipped | sys/log.go:74-85 | when every frame in the window starts with a filtered prefix, the result is empty |
| LogHooks.MissingFrameIsKept | sys/log.go:86-93 | a missing frame passes the filter and is rendered as an empty file at line 0 |
| LogHooks.LineHookLevels | sys/log.go:42-48 | exactly the error, fatal and panic levels |
| LogHooks.LogHookLevels | sys/log.go:131-133 | seven distinct levels |
| LogHooks.LogHookCoversAll | sys/log.go:131-133 | every level is one the log hook fires on |
| LogHooks.Fire | sys/log.go:51-61 | a push happens exactly when ErrNoticeRdsKey is non-empty, onto that list, with the message tagged by the service name and nothing else added; a nil app document panics |
| LogHooks.FireKeepsMessage | sys/log.go:57-59 | the pushed text, past the service-name tag, is the logged message, so different messages give different pushes |
| LogHooks.PaddedValue | sys/log.go:166 | a zero-padded number has the width asked for and reads back as the number |
| LogHooks.LogFileNameRoundTrip | sys/log.go:166 | "print_" + YYYYMMDD + ".log" reads back as the date it was formed from |
| LogHooks.FieldsAt | sys/log.go:166 | the name's fixed positions hold the prefix, year, month, day and suffix |
| LogHooks.PathInfo | sys/log.go:122 | the log directory is the log path followed by the service name, with no other characters; a nil app document panics |
| LogHooks.DropDotPrefix | sys/log.go:169 | the result has no leading "./" and is a suffix of the directory; a directory without a leading "./" is kept |
| LogHooks.DropDotPrefixRemovesDotSlashes | sys/log.go:169 | the directory is exactly its run of leading "./" elements followed by what is kept, so nothing else is removed |
| LogHooks.LogFilePath | sys/log.go:169 | with leading "./" elements dropped: the name alone when "" or "." is left; otherwise the name under what is left, separated by exactly one slash, and no other characters |
| LogHooks.LeadingDotDropped | sys/log.go:122-169 | the directory "./logs/svc" gives "logs/svc/" followed by the day's name |
| LogHooks.LogFileNameEndsPath | sys/log.go:166-169 | the last 18 characters of the joined path are the day's file name |
| LogHooks.LogFilePathKeepsPrefix | sys/log.go:169 | joining a name keeps every prefix of the directory, except under "." where the name stands alone and under a leading "./", which is dropped |
| LogHooks.LogFileUnder | sys/log.go:166-169 | under a directory starting with a given path, the day's file starts with that path unless the directory is "." or starts with "./", and its name reads back as the day |
| LogHooks.LogFileLocatedByDate | sys/log.go:122-169 | the day's log file lies under the configured log_path unless the log directory is "." or starts with "./", and its last 18 characters read back as the day |
| Text.Split | sys/elastic_helper.go:51 | the pieces hold no separator, and joining them gives the string back |
| Text.SplitJoin | service/nacos_service.go:66 | joining separator-free pieces and splitting again gives the pieces |
| Text.SplitLength | service/nacos_service.go:66-67 | a split yields one more piece than there are separators |
| Text.ReplaceAll | sys/gorm_helper.go:76-79 | every occurrence of the character is replaced and the rest kept in place |
| Text.DecimalRoundTrip | service/nacos_service.go:180 | a number rendered in decimal reads back as itself |
| Text.IntToDecimal | sys/redis_helper.go:61 | the rendering is never empty and starts with a minus sign exactly for negative numbers |
| Text.IntToDecimalRoundTrip | sys/redis_helper.go:61 | a number's rendering reads back as the number: digits with no leading zero, after a minus sign for a negative one |
| Text.PadZeroValue | sys/log.go:166 | padding a digit string with leading zeros keeps its value and its digits |
| Text.WrapInt64 | sys/redis_helper.go:66-69 | Go's 64-bit wrap-around: exact in range, and congruent modulo 2^64 |

## Left out

- Concurrency: the mutexes, the atomics and the unlocked map read in `Cfg`. Every public call is one atomic step.
- `sync.Once` in `InitClient`: the model describes its single run.
- Viper's internals: case-insensitive keys, the nested deep merge of `SetDefault`/`AllSettings`, and `cast` conversions of string values in `GetInt`. A document is a flat-at-the-top map of values, and `Merge` is a key-level override.
- Config.GetInt: states the nil, missing-key, number and boolean cases; a stored string or table is converted by `cast`, which is not modelled.
- An uninitialised `configLocal`: `Cfg` and `ResetCfgKey` dereference it (sys/config.go:43 and :76), and so does `Nacos` (sys/nacos.go:26), so calling them before `InitConfig` panics in Go. The model always starts from an initialised configuration.
- Floating-point, array and datetime values in a document: `Value` has no such case, so a field such as `max_conn = 10.0`, which makes the `int64` assertion of sys/gorm_helper.go:133 panic in Go, cannot be written in the model.
- Config.GetStringMap: states only that a non-empty result is the stored table, because converting nested non-table values is viper's.
- The fmt rendering of a table inside a DSN: `FormatS` uses a placeholder, not Go's sorted `map[k:v]` text.
- `path.Join` normalisation: `LogFilePath` drops leading "./" elements, as cleaning does, and then handles "", "." and any directory that is clean: no "." element, no ".." after a non-".." element or after a leading "/", no doubled slash, and no trailing slash except in "/". A directory that is still unclean after that, such as "a/./b", "a/../b" or ".//a", is joined as it stands.
- The Nacos SDK: client configuration, `ListenConfig` errors, `Register`/`DeRegister` (service/nacos_service.go:130-170) and the config-client map. Their outcomes are parameters or are not modelled.
- `EsToStruct` (sys/elastic.go:31-38): reflection over search hits.
- sys/print.go: console output; `Md5` is the `digest` parameter.
- sys/env.go and service/init.go: thin delegators. The stage they set is the `env` field.
- Test entry points.
- The root config.go is not part of this model: the root `Nacos` receives the root package's app document as a parameter.
- `writeToLog`, `os.Stat`/`MkdirAll`/`OpenFile` and time formatting beyond YYYYMMDD.
- `lineHook.Fire` also writes `funcLine` and `message` into `entry.Data` in place (sys/log.go:53-54), so logrus's own output of that entry shows them; the model has no log entry to change.
- `lineHook.Fire` sends its push through `Redis()` and builds the message with `findCaller`: `LogHooks.Fire` returns the push as a value, and the two calls are modelled separately as `Routing.Redis` and `LogHooks.FindCaller`.
- JSON encoding: the logged message and the hashed table arrive encoded.
- `GetStringSlice("nacos.group_data_ids")`: the entry list is given to `InitClient`.
- `*net.IPAddr` and other address kinds are `OtherAddr`, which never qualifies.
- LogHooks.LogFileNameRoundTrip: limited to four-digit years and two-digit months and days, the range `time.Format("20060102")` produces for calendar dates.
- Text.Split: a single-character separator only, which is all the modelled code uses.
- The package-level functions of the environment package are the manager transitions applied to `DefaultManager`, with no separate members.

=== FILE: config.dfy ===
/**
  The layered configuration resolver of sys/config.go and the shared
  name-to-document cache it keeps.

  A configuration document (a viper instance) is a tree of values keyed by
  name. The file system is a map from path to the parse outcome of the file
  at that path: a path is present exactly when the file exists, and maps to
  None when the file exists but does not parse.
 */
module Config {
  import opened Wrappers
  import opened Text
  import Environment

  /** A configuration value as TOML decoding yields it. */
  datatype Value =
    | Str(s: string)
    | Int(i: int64)
    | Bool(b: bool)
    | Table(fields: map<string, Value>)

  type Doc = map<string, Value>

  /** A *viper.Viper: None is the nil pointer. */
  type Viper = Option<Doc>

  type FileSystem = map<string, Option<Doc>>

  // ---------------------------------------------------------------------
  // Reading values out of a document

  /** The value at a dotted key path, descending through tables. */
  function Find(doc: Doc, path: seq<string>): (r: Option<Value>)
    ensures |path| == 1 ==> r == (if path[0] in doc then Some(doc[path[0]]) else None)
    decreases |path|
  {
    if |path| == 0 || path[0] !in doc then None
    else if |path| == 1 then Some(doc[path[0]])
    else match doc[path[0]]
      case Table(fields) => Find(fields, path[1..])
      case _ => None
  }

  /** viper GetString: the string at `key`, a number or boolean rendered as
      text, and "" for anything else; calling it on nil panics. */
  function GetString(v: Viper, key: string): (r: Outcome<string>)
    ensures r.Panic? <==> v.None?
    ensures v.Some? && Find(v.value, Split(key, '.')).Some? && Find(v.value, Split(key, '.')).value.Str? ==>
      r == Done(Find(v.value, Split(key, '.')).value.s)
    ensures v.Some? && Find(v.value, Split(key, '.')).None? ==> r == Done("")
  {
    match v
    case None => Panic("GetString on a nil viper")
    case Some(doc) =>
      match Find(doc, Split(key, '.'))
      case Some(Str(s)) => Done(s)
      case Some(Int(i)) => Done(IntToDecimal(i as int))
      case Some(Bool(b)) => Done(if b then "true" else "false")
      case _ => Done("")
  }

  /** viper GetInt: the number at `key`, 1 or 0 for a boolean, and 0 for
      anything else; calling it on nil panics. */
  function GetInt(v: Viper, key: string): (r: Outcome<int64>)
    ensures r.Panic? <==> v.None?
    ensures v.Some? && Find(v.value, Split(key, '.')).None? ==> r == Done(0)
    ensures v.Some? && Find(v.value, Split(key, '.')).Some? && Find(v.value, Split(key, '.')).value.Int? ==>
      r == Done(Find(v.value, Split(key, '.')).value.i)
    ensures v.Some? && Find(v.value, Split(key, '.')).Some? && Find(v.value, Split(key, '.')).value.Bool? ==>
      r == Done(if Find(v.value, Split(key, '.')).value.b then 1 else 0)
  {
    match v
    case None => Panic("GetInt on a nil viper")
    case Some(doc) =>
      match Find(doc, Split(key, '.'))
      case Some(Int(i)) => Done(i)
      case Some(Bool(b)) => Done(if b then 1 else 0)
      case _ => Done(0)
  }

  /** viper GetStringMap: the table at `key`, empty for anything else;
      calling it on nil panics. */
  function GetStringMap(v: Viper, key: string): (r: Outcome<map<string, Value>>)
    ensures r.Panic? <==> v.None?
    ensures r.Done? && |r.value| > 0 ==> Find(v.value, Split(key, '.')) == Some(Table(r.value))
  {
    match v
    case None => Panic("GetStringMap on a nil viper")
    case Some(doc) =>
      match Find(doc, Split(key, '.'))
      case Some(Table(fields)) => Done(fields)
      case _ => Done(map[])
  }

  /** config[key] on a map[string]interface{}: None for a missing key. */
  function Field(config: map<string, Value>, key: string): Option<Value>
  {
    if key in config then Some(config[key]) else None
  }

  /** config[key] holds a string. */
  predicate HasStr(config: map<string, Value>, key: string)
  {
    key in config && config[key].Str?
  }

  /** config[key] holds a number. */
  predicate HasInt(config: map<string, Value>, key: string)
  {
    key in config && config[key].Int?
  }

  /** The type assertion config[key].(string): panics unless a string is there. */
  function AsString(config: map<string, Value>, key: string): (r: Outcome<string>)
    ensures r.Done? <==> HasStr(config, key)
    ensures r.Done? ==> config[key] == Str(r.value)
  {
    match Field(config, key)
    case Some(Str(s)) => Done(s)
    case _ => Panic("interface conversion: " + key + " is not string")
  }

  /** The type assertion config[key].(int64): panics unless a number is there. */
  function AsInt64(config: map<string, Value>, key: string): (r: Outcome<int64>)
    ensures r.Done? <==> HasInt(config, key)
    ensures r.Done? ==> config[key] == Int(r.value)
  {
    match Field(config, key)
    case Some(Int(i)) => Done(i)
    case _ => Panic("interface conversion: " + key + " is not int64")
  }

  // ---------------------------------------------------------------------
  // The resolver state

  /** The package's configuration: the ordered search roots and the cache of
      resolved documents, shared with the remote override store. */
  datatype Configuration = Configuration(paths: seq<string>, vipers: map<string, Doc>)

  /** What a resolution returns: the next state and the document (nil on failure). */
  datatype Resolved = Resolved(config: Configuration, viper: Viper)

  const DefaultPaths: seq<string> := ["../../configs", "configs", "../configs"]

  /** InitConfig: the given roots, or the three default roots when none are
      given, and an empty document cache. */
  function InitConfig(configPath: seq<string>): (c: Configuration)
    ensures |configPath| == 0 ==> c.paths == ["../../configs", "configs", "../configs"]
    ensures |configPath| > 0 ==> c.paths == configPath
    ensures c.vipers == map[]
  {
    Configuration(if |configPath| == 0 then DefaultPaths else configPath, map[])
  }

  /** `c'` keeps the roots of `c` and every document `c` has cached. */
  predicate Extends(c: Configuration, c': Configuration)
  {
    c'.paths == c.paths && forall k | k in c.vipers :: k in c'.vipers && c'.vipers[k] == c.vipers[k]
  }

  /** The candidate "{root}/{env}/{file}.toml". */
  function ConfigFilePath(root: string, env: Environment.Env, file: string): (p: string)
    ensures |p| > 0
  {
    root + "/" + env.name + "/" + file + ".toml"
  }

  /** getConfigFile: the candidate under the first root, in order, whose file
      exists, and "" when there is none. */
  function FindConfigFile(paths: seq<string>, file: string, env: Environment.Env, fs: FileSystem): (r: string)
    ensures r == "" <==> forall i | 0 <= i < |paths| :: ConfigFilePath(paths[i], env, file) !in fs
    ensures r != "" ==> exists i | 0 <= i < |paths| ::
      && r == ConfigFilePath(paths[i], env, file)
      && r in fs
      && forall j | 0 <= j < i :: ConfigFilePath(paths[j], env, file) !in fs
    decreases |paths|
  {
    if |paths| == 0 then ""
    else
      var candidate := ConfigFilePath(paths[0], env, file);
      if candidate in fs then candidate
      else
        var r := FindConfigFile(paths[1..], file, env, fs);
        assert forall i | 1 <= i < |paths| :: paths[i] == paths[1..][i - 1];
        r
  }

  /** viper ReadInConfig on a path: an empty or missing path fails, as does
      a file that does not parse. */
  function ReadInConfig(fs: FileSystem, path: string): (r: Option<Doc>)
    ensures path != "" && path in fs ==> r == fs[path]
    ensures path == "" || path !in fs ==> r.None?
  {
    if path == "" || path !in fs then None else fs[path]
  }

  /** A document whose defaults are every key of `base` and whose own values
      are those of `override`: a key of `override` shadows the default. */
  function Merge(base: Doc, override: Doc): (r: Doc)
    ensures r.Keys == base.Keys + override.Keys
    ensures forall k | k in override :: r[k] == override[k]
    ensures forall k | k in base && k !in override :: r[k] == base[k]
  {
    base + override
  }

  /** Cfg: the cached document for `file` when there is one; otherwise the
      base file and the override file, both searched under the current
      stage, are read and merged, and the result is cached under `file`.
      A failed read returns nil and caches nothing. */
  function Cfg(c: Configuration, file: string, env: Environment.Env, fs: FileSystem): (r: Resolved)
    ensures file in c.vipers ==> r == Resolved(c, Some(c.vipers[file]))
    ensures r.viper.None? ==> r.config == c
    ensures r.viper.Some? ==> r.config == c.(vipers := c.vipers[file := r.viper.value])
    ensures file !in c.vipers && FindConfigFile(c.paths, file, env, fs) == "" ==> r.viper.None?
  {
    if file in c.vipers then Resolved(c, Some(c.vipers[file]))
    else
      var baseConfigFile := FindConfigFile(c.paths, file, env, fs);
      match ReadInConfig(fs, baseConfigFile)
      case None => Resolved(c, None)
      case Some(base) =>
        var envConfigFile := FindConfigFile(c.paths, file, env, fs);
        if envConfigFile == "" then
          var merged := Merge(base, map[]);
          Resolved(c.(vipers := c.vipers[file := merged]), Some(merged))
        else
          match ReadInConfig(fs, envConfigFile)
          case None => Resolved(c, None)
          case Some(over) =>
            var merged := Merge(base, over);
            Resolved(c.(vipers := c.vipers[file := merged]), Some(merged))
  }

  /** ResetCfgKey: evicts `file` and nothing else. */
  function ResetCfgKey(c: Configuration, file: string): (r: Configuration)
    ensures file !in r.vipers && r.paths == c.paths
    ensures forall k | k != file :: (k in r.vipers <==> k in c.vipers)
    ensures forall k | k != file && k in c.vipers :: r.vipers[k] == c.vipers[k]
    ensures file !in c.vipers ==> r == c
  {
    if file in c.vipers then c.(vipers := c.vipers - {file}) else c
  }

  // ---------------------------------------------------------------------
  // Properties

  /** Both probes use the same stage, so they find the same file: a fresh
      resolution returns exactly the document parsed from the first existing
      candidate, and the layering adds nothing. */
  lemma CfgLayersCoincide(c: Configuration, file: string, env: Environment.Env, fs: FileSystem)
    requires file !in c.vipers
    ensures var p := FindConfigFile(c.paths, file, env, fs);
      Cfg(c, file, env, fs).viper == (if p == "" then None else fs[p])
  {
    var p := FindConfigFile(c.paths, file, env, fs);
    if p != "" {
      match fs[p]
      case None =>
      case Some(d) => assert Merge(d, d) == d;
    }
  }

  /** A resolved document is served from the cache afterwards: resolving the
      same name again returns the same document and changes nothing. */
  lemma CfgCaches(c: Configuration, file: string, env: Environment.Env, fs: FileSystem, env': Environment.Env, fs': FileSystem)
    requires Cfg(c, file, env, fs).viper.Some?
    ensures var r := Cfg(c, file, env, fs); Cfg(r.config, file, env', fs') == r
  {
  }

  /** After ResetCfgKey the next resolution reads the files again instead of
      returning the evicted document. */
  lemma ResetThenCfgRereads(c: Configuration, file: string, env: Environment.Env, fs: FileSystem)
    requires file in c.vipers
    ensures var p := FindConfigFile(c.paths, file, env, fs);
      Cfg(ResetCfgKey(c, file), file, env, fs).viper == (if p == "" then None else fs[p])
  {
    CfgLayersCoincide(ResetCfgKey(c, file), file, env, fs);
  }
}

=== FILE: elastic_helper.dfy ===
/**
  The Elasticsearch client manager of sys/elastic_helper.go: keyed clients
  built from a configuration table.

  elastic.NewClient is external: `connects` says whether it succeeds for the
  given settings, and the client it returns is described by those settings.
 */
module ElasticHelper {
  import opened Wrappers
  import opened Text
  import opened Config
  import KeyedCache

  /** What NewInstance passes to elastic.NewClient besides fixed options. */
  datatype EsSettings = EsSettings(urls: seq<string>, username: string, password: string)

  datatype EsClient = EsClient(settings: EsSettings)

  datatype EsManager = EsManager(clients: map<string, Option<EsClient>>)

  function NewEsClientManager(): (m: EsManager)
    ensures m.clients == map[]
  {
    EsManager(map[])
  }

  /** The server URLs are the addresses string cut at every ',' (the empty
      string gives one empty URL); username and password are read by type
      assertions that panic on a wrong type. */
  function Settings(config: map<string, Value>): (r: Outcome<EsSettings>)
    ensures r.Done? <==> HasStr(config, "addresses") && HasStr(config, "username") && HasStr(config, "password")
    ensures r.Done? ==>
      && |r.value.urls| == Count(config["addresses"].s, ',') + 1
      && Join(r.value.urls, ',') == config["addresses"].s
      && (forall i | 0 <= i < |r.value.urls| :: ',' !in r.value.urls[i])
      && r.value.username == config["username"].s
      && r.value.password == config["password"].s
  {
    var addresses :- AsString(config, "addresses");
    var username :- AsString(config, "username");
    var password :- AsString(config, "password");
    SplitLength(addresses, ',');
    Done(EsSettings(Split(addresses, ','), username, password))
  }

  /** NewInstance: the client, or nil when elastic.NewClient fails. */
  function NewInstance(config: map<string, Value>, connects: EsSettings -> bool): (r: Outcome<Option<EsClient>>)
    ensures r.Done? <==> Settings(config).Done?
    ensures r.Done? ==> (r.value.Some? <==> connects(Settings(config).value))
    ensures r.Done? && r.value.Some? ==> r.value.value.settings == Settings(config).value
  {
    var settings :- Settings(config);
    Done(if connects(settings) then Some(EsClient(settings)) else None)
  }

  /** Get: the stored client on a hit; on a miss the built client is stored,
      even when it is nil, and returned. */
  function Get(m: EsManager, name: string, config: map<string, Value>, connects: EsSettings -> bool):
    (r: Outcome<(EsManager, Option<EsClient>)>)
    ensures name in m.clients ==> r == Done((m, m.clients[name]))
    ensures name !in m.clients ==> (r.Panic? <==> Settings(config).Panic?)
    ensures name !in m.clients && r.Done? ==>
      && r.value.0.clients == m.clients[name := r.value.1]
      && (r.value.1.None? <==> !connects(Settings(config).value))
      && NewInstance(config, connects) == Done(r.value.1)
  {
    var g :- KeyedCache.GetOrCreate(m.clients, name, NewInstance(config, connects));
    Done((EsManager(g.clients), g.client))
  }

  /** Clear: no clients left. */
  function Clear(m: EsManager): (r: EsManager)
    ensures forall k :: k !in r.clients
  {
    EsManager(KeyedCache.Clear(m.clients))
  }

  /** A failed build is remembered: the nil stored under the name is what
      every later Get returns, so no new connection is tried until Clear. */
  lemma FailureIsCached(m: EsManager, name: string, config: map<string, Value>,
                        connects: EsSettings -> bool, config': map<string, Value>, connects': EsSettings -> bool)
    requires name !in m.clients && Settings(config).Done? && !connects(Settings(config).value)
    ensures var r := Get(m, name, config, connects);
      && r == Done((EsManager(m.clients[name := None]), None))
      && Get(r.value.0, name, config', connects') == Done((r.value.0, None))
  {
  }
}

=== FILE: environment.dfy ===
/**
  The runtime-environment manager: the current deployment stage, the set of
  stages that may be selected, a one-way lock and the listeners told about
  every change of stage.

  The Go manager is a mutable object behind a mutex; here it is an immutable
  value and every public method is one transition function returning the
  next manager together with what the method returns. A listener is an
  opaque value of type L; calling the listeners is recorded as the sequence
  of Notification values the call would deliver, in delivery order.
  The package-level functions of the environment package apply the same
  transitions to one process-wide manager that starts as New().
 */
module Environment {
  import opened Wrappers

  /** A named deployment stage. */
  datatype Env = Env(name: string)

  const Development: Env := Env("development")
  const Testing: Env := Env("testing")
  const Prerelease: Env := Env("prerelease")
  const Production: Env := Env("production")

  /** The four built-in stages, in the order New() registers them. */
  const BuiltIn: seq<Env> := [Development, Testing, Prerelease, Production]

  /** Env.String: the stage's own text. */
  function String(e: Env): (s: string)
    ensures Env(s) == e
  {
    e.name
  }

  /** Env.Is: two stages are the same stage exactly when their texts are equal. */
  predicate Is(e: Env, other: Env)
    ensures Is(e, other) <==> e.name == other.name
  {
    e == other
  }

  /** Env.In: the linear scan over `envs` for a stage equal to `e`. */
  function In(e: Env, envs: seq<Env>): (r: bool)
    ensures r <==> exists i | 0 <= i < |envs| :: envs[i] == e
  {
    if |envs| == 0 then false else Is(e, envs[0]) || In(e, envs[1..])
  }

  /** The built-in stages are pairwise distinct. */
  lemma BuiltInDistinct()
    ensures forall i, j | 0 <= i < j < |BuiltIn| :: BuiltIn[i] != BuiltIn[j]
  {
    assert Development.name[0] == 'd' && Testing.name[0] == 't';
    assert Prerelease.name[0] == 'p' && Production.name[0] == 'p';
    assert Prerelease.name[2] == 'e' && Production.name[2] == 'o';
  }

  // ---------------------------------------------------------------------
  // The manager

  datatype EnvError = ErrInvalidEnv | ErrLocked

  datatype Manager<L> = Manager(current: Env, locked: bool, registered: seq<Env>, listeners: seq<L>)

  /** One synchronous listener call: listener(after, before). */
  datatype Notification<L> = Notification(listener: L, after: Env, before: Env)

  /** What Set and SetAndLock return: the next manager, the error (None for
      nil) and the listener calls made during the call. */
  datatype SetResult<L> = SetResult(manager: Manager<L>, err: Option<EnvError>, calls: seq<Notification<L>>)

  /** New: Development is current, the four built-in stages are registered,
      nothing is locked and nobody listens. */
  function New<L>(): (m: Manager<L>)
    ensures m.current == Development && !m.locked && m.listeners == []
    ensures m.registered == [Env("development"), Env("testing"), Env("prerelease"), Env("production")]
  {
    Manager(Development, false, BuiltIn, [])
  }

  /** NewEmpty: no stage registered and the empty stage current. */
  function NewEmpty<L>(): (m: Manager<L>)
    ensures m.current.name == "" && !m.locked && |m.registered| == 0 && |m.listeners| == 0
  {
    Manager(Env(""), false, [], [])
  }

  function Get<L>(m: Manager<L>): Env
  {
    m.current
  }

  /** Manager.Is: the current stage is `env`. */
  predicate IsCurrent<L>(m: Manager<L>, env: Env)
    ensures IsCurrent(m, env) <==> m.current.name == env.name
  {
    Is(m.current, env)
  }

  /** Manager.In: the current stage occurs in `envs`. */
  predicate InCurrent<L>(m: Manager<L>, envs: seq<Env>)
    ensures InCurrent(m, envs) <==> m.current in envs
  {
    In(m.current, envs)
  }

  /** Register: appends `env` unless it is already registered. */
  function Register<L>(m: Manager<L>, env: Env): (r: Manager<L>)
    ensures env in m.registered ==> r == m
    ensures env !in m.registered ==> r == m.(registered := m.registered + [env])
  {
    if !In(env, m.registered) then m.(registered := m.registered + [env]) else m
  }

  predicate Registered<L>(m: Manager<L>, env: Env)
    ensures Registered(m, env) <==> env in m.registered
  {
    In(env, m.registered)
  }

  /** Lock: sets the lock; there is no operation that clears it. */
  function Lock<L>(m: Manager<L>): (r: Manager<L>)
    ensures r.locked
    ensures r.current == m.current && r.registered == m.registered && r.listeners == m.listeners
  {
    m.(locked := true)
  }

  predicate Locked<L>(m: Manager<L>)
  {
    m.locked
  }

  /** The calls `listeners[i](after, before)` for every i, in order. */
  function Notify<L>(listeners: seq<L>, after: Env, before: Env): (calls: seq<Notification<L>>)
    ensures |calls| == |listeners|
    ensures forall i | 0 <= i < |listeners| :: calls[i] == Notification(listeners[i], after, before)
  {
    if |listeners| == 0 then []
    else [Notification(listeners[0], after, before)] + Notify(listeners[1..], after, before)
  }

  /** Set (and the unexported set it wraps). The lock is checked before the
      registration; selecting the current stage again is a success that
      calls nobody; a change calls every listener once, in the order they
      were added, with (new, old). */
  function Set<L>(m: Manager<L>, env: Env): (r: SetResult<L>)
    ensures m.locked ==> r == SetResult(m, Some(ErrLocked), [])
    ensures !m.locked && env !in m.registered ==> r == SetResult(m, Some(ErrInvalidEnv), [])
    ensures !m.locked && env in m.registered && env == m.current ==> r == SetResult(m, None, [])
    ensures !m.locked && env in m.registered && env != m.current ==>
      && r.err == None
      && r.manager == m.(current := env)
      && |r.calls| == |m.listeners|
      && forall i | 0 <= i < |m.listeners| :: r.calls[i] == Notification(m.listeners[i], env, m.current)
  {
    if m.locked then SetResult(m, Some(ErrLocked), [])
    else if !In(env, m.registered) then SetResult(m, Some(ErrInvalidEnv), [])
    else if Is(m.current, env) then SetResult(m, None, [])
    else SetResult(m.(current := env), None, Notify(m.listeners, env, m.current))
  }

  /** SetAndLock: Set, then lock only if Set succeeded. */
  function SetAndLock<L>(m: Manager<L>, env: Env): (r: SetResult<L>)
    ensures r.err.Some? ==> r.manager == m && r.calls == []
    ensures r.err.None? ==> r.manager.locked && r.manager.current == env
    ensures r.err.None? <==> !m.locked && env in m.registered
    ensures r.manager.registered == m.registered && r.manager.listeners == m.listeners
    ensures r.err.None? && env == m.current ==> r.calls == []
    ensures r.err.None? && env != m.current ==>
      && |r.calls| == |m.listeners|
      && forall i | 0 <= i < |m.listeners| :: r.calls[i] == Notification(m.listeners[i], env, m.current)
  {
    var s := Set(m, env);
    if s.err.Some? then s else s.(manager := s.manager.(locked := true))
  }

  /** Listen: a present listener is pushed on top; nil is ignored. */
  function Listen<L>(m: Manager<L>, listener: Option<L>): (r: Manager<L>)
    ensures listener.None? ==> r == m
    ensures listener.Some? ==> r.listeners == m.listeners + [listener.value]
    ensures r.current == m.current && r.locked == m.locked && r.registered == m.registered
  {
    if listener.Some? then m.(listeners := m.listeners + [listener.value]) else m
  }

  /** UnListen: pops and returns the most recently added listener, or nil. */
  function UnListen<L>(m: Manager<L>): (r: (Manager<L>, Option<L>))
    ensures |m.listeners| == 0 ==> r == (m, None)
    ensures |m.listeners| > 0 ==>
      && r.1 == Some(m.listeners[|m.listeners| - 1])
      && r.0.listeners + [r.1.value] == m.listeners
    ensures r.0.current == m.current && r.0.locked == m.locked && r.0.registered == m.registered
  {
    var n := |m.listeners| - 1;
    if n >= 0 then (m.(listeners := m.listeners[..n]), Some(m.listeners[n])) else (m, None)
  }

  /** UnListenAll: removes every listener and returns them in the order they
      were added (the empty list standing for nil). */
  function UnListenAll<L>(m: Manager<L>): (r: (Manager<L>, seq<L>))
    ensures r.1 == m.listeners && r.0.listeners == []
    ensures r.0.current == m.current && r.0.locked == m.locked && r.0.registered == m.registered
  {
    if |m.listeners| > 0 then (m.(listeners := []), m.listeners) else (m, [])
  }

  // ---------------------------------------------------------------------
  // Properties relating several calls

  /** Registering twice is registering once, and afterwards the stage is registered. */
  lemma RegisterIdempotent<L>(m: Manager<L>, env: Env)
    ensures Register(Register(m, env), env) == Register(m, env)
    ensures Registered(Register(m, env), env)
  {
  }

  /** After a successful Set the current stage is the one just set, whether or
      not it changed; a second Set of the same stage calls nobody. */
  lemma SetThenGet<L>(m: Manager<L>, env: Env)
    requires Set(m, env).err.None?
    ensures Get(Set(m, env).manager) == env
    ensures Set(Set(m, env).manager, env) == SetResult(Set(m, env).manager, None, [])
  {
  }

  /** A locked manager refuses every stage with ErrLocked, even an
      unregistered one, and is left exactly as it was. */
  lemma LockedRefusesEverySet<L>(m: Manager<L>, env: Env)
    requires m.locked
    ensures Set(m, env) == SetResult(m, Some(ErrLocked), [])
    ensures SetAndLock(m, env) == SetResult(m, Some(ErrLocked), [])
  {
  }

  /** Lock is idempotent. */
  lemma LockIdempotent<L>(m: Manager<L>)
    ensures Lock(Lock(m)) == Lock(m)
  {
  }

  /** Pushing a listener and popping one gives back the manager and that listener. */
  lemma ListenUnListen<L>(m: Manager<L>, l: L)
    ensures UnListen(Listen(m, Some(l))) == (m, Some(l))
  {
    assert (m.listeners + [l])[..|m.listeners|] == m.listeners;
  }

  /** The manager after pushing each of `ls` in turn. */
  function ListenAll<L>(m: Manager<L>, ls: seq<L>): Manager<L>
    decreases |ls|
  {
    if |ls| == 0 then m else ListenAll(Listen(m, Some(ls[0])), ls[1..])
  }

  /** Pushing each of `ls` in turn appends them, in order, after the listeners already there. */
  lemma {:induction false} ListenAllAppends<L>(m: Manager<L>, ls: seq<L>)
    ensures ListenAll(m, ls).listeners == m.listeners + ls
    decreases |ls|
  {
    if |ls| > 0 {
      ListenAllAppends(Listen(m, Some(ls[0])), ls[1..]);
      assert m.listeners + [ls[0]] + ls[1..] == m.listeners + ls;
    }
  }

  /** Listeners come back from UnListenAll in the order they were added. */
  lemma ListenAllThenUnListenAll<L>(m: Manager<L>, ls: seq<L>)
    ensures ListenAll(m, ls).listeners == m.listeners + ls
    ensures UnListenAll(ListenAll(NewEmpty(), ls)).1 == ls
  {
    ListenAllAppends(m, ls);
    ListenAllAppends(NewEmpty<L>(), ls);
    assert NewEmpty<L>().listeners + ls == ls;
  }

  // ---------------------------------------------------------------------
  // Arbitrary call sequences

  /** One public mutating call on the manager. */
  datatype Op<L> =
    | RegisterOp(env: Env)
    | LockOp
    | SetOp(env: Env)
    | SetAndLockOp(env: Env)
    | ListenOp(listener: Option<L>)
    | UnListenOp
    | UnListenAllOp

  function Apply<L>(m: Manager<L>, op: Op<L>): Manager<L>
  {
    match op
    case RegisterOp(e) => Register(m, e)
    case LockOp => Lock(m)
    case SetOp(e) => Set(m, e).manager
    case SetAndLockOp(e) => SetAndLock(m, e).manager
    case ListenOp(l) => Listen(m, l)
    case UnListenOp => UnListen(m).0
    case UnListenAllOp => UnListenAll(m).0
  }

  function Run<L>(m: Manager<L>, ops: seq<Op<L>>): Manager<L>
    decreases |ops|
  {
    if |ops| == 0 then m else Run(Apply(m, ops[0]), ops[1..])
  }

  /** Once locked, a manager stays locked and keeps its stage whatever is
      called afterwards. */
  lemma {:induction false} LockIsPermanent<L>(m: Manager<L>, ops: seq<Op<L>>)
    requires m.locked
    ensures Run(m, ops).locked && Run(m, ops).current == m.current
    decreases |ops|
  {
    if |ops| > 0 {
      LockIsPermanent(Apply(m, ops[0]), ops[1..]);
    }
  }

  /** Registration only ever appends: the list after any calls extends the
      list before. A current stage that is registered stays registered, and
      any stage that a call sequence switches to is a registered one. */
  lemma {:induction false} RegisteredOnlyGrows<L>(m: Manager<L>, ops: seq<Op<L>>)
    ensures m.registered <= Run(m, ops).registered
    ensures m.current in m.registered ==> Run(m, ops).current in Run(m, ops).registered
    ensures Run(m, ops).current != m.current ==> Run(m, ops).current in Run(m, ops).registered
    decreases |ops|
  {
    if |ops| > 0 {
      var next := Apply(m, ops[0]);
      assert m.registered <= next.registered;
      assert next.current != m.current ==> next.current in next.registered;
      RegisteredOnlyGrows(next, ops[1..]);
      var last := Run(next, ops[1..]);
      if last.current != m.current && last.current == next.current {
        assert next.current in next.registered;
      }
    }
  }

  // ---------------------------------------------------------------------
  // The process-wide default manager

  /** The manager the package-level functions act on, as first created. */
  function DefaultManager<L>(): (m: Manager<L>)
    ensures Get(m) == Development && Registered(m, Production) && !Locked(m)
  {
    New()
  }
}

=== FILE: gorm_helper.dfy ===
/**
  The database client manager of sys/gorm_helper.go: keyed clients, a
  manager-wide log level refreshed from the remote configuration on every
  hit, the driver dispatch and DSN formatting that build a client, and the
  SQL rewrite of the beforeUpdate callback.

  gorm.Open and DB() are external: a GormDriver says, per dialector, whether
  opening succeeds and whether the opened client yields its *sql.DB. A
  client is described by what the code configures on it: its dialector, its
  logger level and the pool limits set on its *sql.DB. A re-levelled session
  keeps the dialector and the pool: it is the same connection.
 */
module GormHelper {
  import opened Wrappers
  import opened Text
  import opened Config

  datatype Dialector = MysqlDialector(dsn: string) | PostgresDialector(dsn: string)

  datatype PoolLimits =
    | DriverDefaults
    | PoolLimits(maxIdleConns: int64, maxOpenConns: int64, connMaxLifetimeSeconds: nat)

  datatype GormDb = GormDb(dialector: Dialector, logLevel: int64, pool: PoolLimits)

  datatype GormDriver = GormDriver(opens: Dialector -> bool, yieldsSqlDb: Dialector -> bool)

  /** The client map (a stored client may be nil) and the manager-wide level. */
  datatype GormManager = GormManager(clients: map<string, Option<GormDb>>, debugLevel: int64)

  /** NewGormClientManager: no clients, level 4 (Info). */
  function NewGormClientManager(): (m: GormManager)
    ensures m.clients == map[] && m.debugLevel == 4
  {
    GormManager(map[], 4)
  }

  // ---------------------------------------------------------------------
  // DSN formatting

  /** fmt "%s" of an interface value. A table is rendered as an opaque
      placeholder rather than Go's sorted "map[k:v ...]" text. */
  function FormatS(v: Option<Value>): string
  {
    match v
    case None => "%!s(<nil>)"
    case Some(Str(s)) => s
    case Some(Int(i)) => "%!s(int64=" + IntToDecimal(i as int) + ")"
    case Some(Bool(b)) => "%!s(bool=" + (if b then "true" else "false") + ")"
    case Some(Table(_)) => "%!s(map)"
  }

  /** fmt "%d" of an interface value. */
  function FormatD(v: Option<Value>): string
  {
    match v
    case None => "%!d(<nil>)"
    case Some(Int(i)) => IntToDecimal(i as int)
    case Some(Str(s)) => "%!d(string=" + s + ")"
    case Some(Bool(b)) => "%!d(bool=" + (if b then "true" else "false") + ")"
    case Some(Table(_)) => "%!d(map)"
  }

  /** The configuration holds the string and number fields the Postgres DSN reads. */
  predicate PostgresTyped(config: map<string, Value>)
  {
    && (forall k | k in ["username", "password", "host", "database"] :: k in config && config[k].Str?)
    && "port" in config && config["port"].Int?
  }

  /** The MySQL DSN reads the same fields and a string "charset" as well. */
  predicate WellTyped(config: map<string, Value>)
  {
    PostgresTyped(config) && "charset" in config && config["charset"].Str?
  }

  function MysqlDsn(config: map<string, Value>): (dsn: string)
    ensures WellTyped(config) ==>
      dsn == config["username"].s + ":" + config["password"].s + "@tcp(" + config["host"].s + ":"
             + IntToDecimal(config["port"].i as int) + ")/" + config["database"].s
             + "?charset=" + config["charset"].s + "&parseTime=True&loc=Local&timeout=5s"
  {
    FormatS(Field(config, "username")) + ":" + FormatS(Field(config, "password"))
    + "@tcp(" + FormatS(Field(config, "host")) + ":" + FormatD(Field(config, "port"))
    + ")/" + FormatS(Field(config, "database"))
    + "?charset=" + FormatS(Field(config, "charset")) + "&parseTime=True&loc=Local&timeout=5s"
  }

  function PostgresDsn(config: map<string, Value>): (dsn: string)
    ensures PostgresTyped(config) ==>
      dsn == "host=" + config["host"].s + " user=" + config["username"].s + " password=" + config["password"].s
             + " dbname=" + config["database"].s + " port=" + IntToDecimal(config["port"].i as int)
             + " connect_timeout=5 sslmode=disable TimeZone=Asia/Shanghai"
  {
    "host=" + FormatS(Field(config, "host")) + " user=" + FormatS(Field(config, "username"))
    + " password=" + FormatS(Field(config, "password")) + " dbname=" + FormatS(Field(config, "database"))
    + " port=" + FormatD(Field(config, "port")) + " connect_timeout=5 sslmode=disable TimeZone=Asia/Shanghai"
  }

  /** The switch on config["driver"]: a dialector only for "postgres" and "mysql". */
  function NewDialector(config: map<string, Value>): (d: Option<Dialector>)
    ensures d.Some? <==> Field(config, "driver") in {Some(Str("postgres")), Some(Str("mysql"))}
    ensures d.Some? && d.value.MysqlDialector? ==> config["driver"] == Str("mysql") && d.value.dsn == MysqlDsn(config)
    ensures d.Some? && d.value.PostgresDialector? ==> config["driver"] == Str("postgres") && d.value.dsn == PostgresDsn(config)
  {
    match Field(config, "driver")
    case Some(Str(drv)) =>
      if drv == "postgres" then Some(PostgresDialector(PostgresDsn(config)))
      else if drv == "mysql" then Some(MysqlDialector(MysqlDsn(config)))
      else None
    case _ => None
  }

  /** NewInstance: nil for an unknown driver or a failed open; otherwise a
      client at `level`, with pool limits when its *sql.DB is available (the
      two limits are read by type assertions that panic on a wrong type) and
      without them when it is not. */
  function NewInstance(level: int64, config: map<string, Value>, driver: GormDriver): (r: Outcome<Option<GormDb>>)
    ensures NewDialector(config).None? ==> r == Done(None)
    ensures NewDialector(config).Some? && !driver.opens(NewDialector(config).value) ==> r == Done(None)
    ensures NewDialector(config).Some? && driver.opens(NewDialector(config).value)
              && !driver.yieldsSqlDb(NewDialector(config).value) ==>
      r == Done(Some(GormDb(NewDialector(config).value, level, DriverDefaults)))
    ensures NewDialector(config).Some? && driver.opens(NewDialector(config).value)
              && driver.yieldsSqlDb(NewDialector(config).value) ==>
      && (r.Panic? <==> !(HasInt(config, "max_idle_conn") && HasInt(config, "max_conn")))
      && (r.Done? ==> r == Done(Some(GormDb(NewDialector(config).value, level,
                                            PoolLimits(config["max_idle_conn"].i, config["max_conn"].i, 30)))))
    ensures r.Done? && r.value.Some? ==>
      && NewDialector(config) == Some(r.value.value.dialector)
      && driver.opens(r.value.value.dialector)
      && r.value.value.logLevel == level
  {
    match NewDialector(config)
    case None => Done(None)
    case Some(d) =>
      if !driver.opens(d) then Done(None)
      else
        var client := GormDb(d, level, DriverDefaults);
        if !driver.yieldsSqlDb(d) then Done(Some(client))
        else
          var maxIdle :- AsInt64(config, "max_idle_conn");
          var maxOpen :- AsInt64(config, "max_conn");
          Done(Some(client.(pool := PoolLimits(maxIdle, maxOpen, 30))))
  }

  /** client.Session with a logger at `level`; a nil client panics. */
  function Session(client: Option<GormDb>, level: int64): (r: Outcome<Option<GormDb>>)
    ensures r.Panic? <==> client.None?
    ensures r.Done? ==> r.value == Some(client.value.(logLevel := level))
  {
    match client
    case None => Panic("Session on a nil *gorm.DB")
    case Some(db) => Done(Some(db.(logLevel := level)))
  }

  /** Get: a hit returns the stored client, first replacing it with a session
      at the live level when the manager's level differs (and recording the
      live level); a miss builds one client at the manager's level, stores it
      even when it is nil, and returns it. */
  function Get(m: GormManager, name: string, config: map<string, Value>, liveLevel: int64, driver: GormDriver):
    (r: Outcome<(GormManager, Option<GormDb>)>)
    ensures name in m.clients && m.debugLevel == liveLevel ==> r == Done((m, m.clients[name]))
    ensures name in m.clients && m.debugLevel != liveLevel ==>
      (r.Panic? <==> m.clients[name].None?)
    ensures name in m.clients && m.debugLevel != liveLevel && r.Done? ==>
      && r.value.1 == Some(m.clients[name].value.(logLevel := liveLevel))
      && r.value.0 == GormManager(m.clients[name := r.value.1], liveLevel)
    ensures name !in m.clients ==> (r.Panic? <==> NewInstance(m.debugLevel, config, driver).Panic?)
    ensures name !in m.clients && r.Done? ==>
      && r.value.1 == NewInstance(m.debugLevel, config, driver).value
      && r.value.0 == m.(clients := m.clients[name := r.value.1])
  {
    if name in m.clients then
      if m.debugLevel != liveLevel then
        var s :- Session(m.clients[name], liveLevel);
        Done((GormManager(m.clients[name := s], liveLevel), s))
      else Done((m, m.clients[name]))
    else
      var client :- NewInstance(m.debugLevel, config, driver);
      Done((m.(clients := m.clients[name := client]), client))
  }

  /** Clear: no clients left; the level is kept. */
  function Clear(m: GormManager): (r: GormManager)
    ensures forall k :: k !in r.clients
    ensures r.debugLevel == m.debugLevel
  {
    m.(clients := map[])
  }

  // ---------------------------------------------------------------------
  // Properties of Get

  /** On a hit the configuration argument plays no part. */
  lemma HitIgnoresConfig(m: GormManager, name: string, c1: map<string, Value>, c2: map<string, Value>,
                         liveLevel: int64, d1: GormDriver, d2: GormDriver)
    requires name in m.clients
    ensures Get(m, name, c1, liveLevel, d1) == Get(m, name, c2, liveLevel, d2)
  {
  }

  /** A refreshed client is the same connection at the live level, and asking
      again at the same level changes nothing. */
  lemma RefreshKeepsConnection(m: GormManager, name: string, config: map<string, Value>, liveLevel: int64, driver: GormDriver)
    requires name in m.clients && m.clients[name].Some?
    ensures var r := Get(m, name, config, liveLevel, driver);
      && r.Done?
      && r.value.1.Some?
      && r.value.1.value.dialector == m.clients[name].value.dialector
      && r.value.1.value.pool == m.clients[name].value.pool
      && r.value.1.value.logLevel == (if m.debugLevel == liveLevel then m.clients[name].value.logLevel else liveLevel)
      && Get(r.value.0, name, config, liveLevel, driver) == Done(r.value)
  {
  }

  /** The level is tracked per manager, not per client: once one key has been
      refreshed, another key whose client still has the old level is returned
      unchanged at the same live level. */
  lemma OtherKeysKeepStaleLevel(m: GormManager, a: string, b: string, config: map<string, Value>,
                                liveLevel: int64, driver: GormDriver)
    requires a != b && a in m.clients && b in m.clients && m.clients[a].Some? && m.clients[b].Some?
    requires m.debugLevel != liveLevel && m.clients[b].value.logLevel == m.debugLevel
    ensures var m1 := Get(m, a, config, liveLevel, driver).value.0;
      && Get(m1, b, config, liveLevel, driver) == Done((m1, m.clients[b]))
      && m.clients[b].value.logLevel != liveLevel
  {
  }

  /** A nil left by a failed build is served on later hits, and a level change
      on such a hit panics. */
  lemma FailedBuildIsCached(m: GormManager, name: string, config: map<string, Value>, liveLevel: int64, driver: GormDriver)
    requires name !in m.clients && NewDialector(config).None?
    ensures var r := Get(m, name, config, liveLevel, driver);
      && r == Done((m.(clients := m.clients[name := None]), None))
      && Get(r.value.0, name, config, m.debugLevel, driver) == Done((r.value.0, None))
      && (liveLevel != m.debugLevel ==> Get(r.value.0, name, config, liveLevel, driver).Panic?)
  {
  }

  /** The level a client is built at only sets its logger: building at a
      stale level and re-levelling the result, as a refreshing hit does, gives
      the client a build at the live level would have given. */
  lemma BuildThenSessionIsBuildAtLevel(stale: int64, live: int64, config: map<string, Value>, driver: GormDriver)
    ensures NewInstance(stale, config, driver).Panic? <==> NewInstance(live, config, driver).Panic?
    ensures NewInstance(stale, config, driver).Done? ==>
      && (NewInstance(stale, config, driver).value.None? <==> NewInstance(live, config, driver).value.None?)
      && (NewInstance(stale, config, driver).value.Some? ==>
            Session(NewInstance(stale, config, driver).value, live) == NewInstance(live, config, driver))
  {
  }

  // ---------------------------------------------------------------------
  // beforeUpdate

  /** The character (U+5206) every replaced character of the SQL becomes. */
  const Replacement: char := '分'
  const UnionTable: string := "ww_client_staff_union"
  const TempTable: string := "ww_temp_id"
  const InsertSql: string := "INSERT INTO ww_temp_id ( unionid ) VALUES (@unionid)"

  /** The four replacements of beforeUpdate, in the order made. */
  function RewriteSql(sql: string): (r: string)
    ensures |r| == |sql|
    ensures forall i | 0 <= i < |sql| ::
      r[i] == (if sql[i] in {',', '\'', '`', '='} then Replacement else sql[i])
  {
    ReplaceAll(ReplaceAll(ReplaceAll(ReplaceAll(sql, ',', Replacement), '\'', Replacement), '`', Replacement), '=', Replacement)
  }

  /** The raw statement beforeUpdate prepares: the insert and its unionid argument. */
  datatype RawInsert = RawInsert(statement: string, unionid: string)

  /** beforeUpdate on the explained SQL of a statement. */
  function BeforeUpdate(sql: string): (r: Option<RawInsert>)
    ensures r.Some? <==> Contains(sql, UnionTable) && !Contains(sql, TempTable)
    ensures r.Some? ==> r.value == RawInsert(InsertSql, RewriteSql(sql))
  {
    var rewritten := RewriteSql(sql);
    RewritePreservesContains(sql, UnionTable);
    RewritePreservesContains(sql, TempTable);
    if Contains(rewritten, UnionTable) && !Contains(rewritten, TempTable) then
      Some(RawInsert(InsertSql, rewritten))
    else None
  }

  /** The rewrite neither creates nor destroys an occurrence of a pattern that
      contains none of the replaced characters and not the replacement. */
  lemma RewritePreservesContains(sql: string, pattern: string)
    requires forall j | 0 <= j < |pattern| :: pattern[j] !in {',', '\'', '`', '=', Replacement}
    ensures Contains(RewriteSql(sql), pattern) <==> Contains(sql, pattern)
  {
    var r := RewriteSql(sql);
    forall i: nat | i <= |sql|
      ensures OccursAt(r, pattern, i) <==> OccursAt(sql, pattern, i)
    {
      if i + |pattern| <= |sql| {
        forall j | 0 <= j < |pattern|
          ensures r[i + j] == pattern[j] <==> sql[i + j] == pattern[j]
        {
          assert pattern[j] !in {',', '\'', '`', '=', Replacement};
        }
      }
    }
    if Contains(sql, pattern) {
      var i: nat :| i <= |sql| && OccursAt(sql, pattern, i);
      assert OccursAt(r, pattern, i);
    }
    if Contains(r, pattern) {
      var i: nat :| i <= |r| && OccursAt(r, pattern, i);
      assert OccursAt(sql, pattern, i);
    }
  }
}

=== FILE: keyed_cache.dfy ===
/**
  The keyed get-or-create pattern the Redis and Elasticsearch client
  managers share (the database manager adds a log-level refresh on top, see
  GormHelper): a map from key to client, a lookup that returns the stored
  client on a hit, and on a miss builds one client, stores it and returns it.

  Each public call runs as one atomic step, so the second, write-locked probe
  of the double-checked pattern always sees what the first probe saw and
  needs no separate model. The build is given as its Outcome: a pure value
  that is only used on a miss, as the Go code calls the constructor only
  then.
 */
module KeyedCache {
  import opened Wrappers

  /** The map after a lookup, the client returned and whether it was built. */
  datatype Got<K, V> = Got(clients: map<K, V>, client: V, built: bool)

  function GetOrCreate<K, V>(clients: map<K, V>, key: K, build: Outcome<V>): (r: Outcome<Got<K, V>>)
    ensures key in clients ==> r == Done(Got(clients, clients[key], false))
    ensures key !in clients ==> (r.Panic? <==> build.Panic?)
    ensures key !in clients && build.Done? ==> r == Done(Got(clients[key := build.value], build.value, true))
  {
    if key in clients then Done(Got(clients, clients[key], false))
    else
      var client :- build;
      Done(Got(clients[key := client], client, true))
  }

  /** Clear: every entry dropped (the clients themselves are not closed). */
  function Clear<K, V>(clients: map<K, V>): (r: map<K, V>)
    ensures forall k :: k !in r
  {
    map[]
  }

  /** After Clear, every key is built again. */
  lemma ClearForcesRebuild<K, V>(clients: map<K, V>, key: K, built: V)
    ensures GetOrCreate(Clear(clients), key, Done(built)) == Done(Got(map[key := built], built, true))
  {
  }

  // ---------------------------------------------------------------------
  // Many callers

  /** The answers to a sequence of lookups, each with the client a build
      would produce for it, served one after another. */
  function Serve<K, V>(clients: map<K, V>, requests: seq<(K, V)>): (outs: seq<Got<K, V>>)
    ensures |outs| == |requests|
    decreases |requests|
  {
    if |requests| == 0 then []
    else
      var g := GetOrCreate(clients, requests[0].0, Done(requests[0].1)).value;
      [g] + Serve(g.clients, requests[1..])
  }

  /** The map after serving `requests`. */
  function Final<K, V>(clients: map<K, V>, requests: seq<(K, V)>): map<K, V>
    decreases |requests|
  {
    if |requests| == 0 then clients
    else Final(GetOrCreate(clients, requests[0].0, Done(requests[0].1)).value.clients, requests[1..])
  }

  /** Entries, once present, never change while requests are served. */
  lemma {:induction false} FinalKeepsEntries<K, V>(clients: map<K, V>, requests: seq<(K, V)>, k: K)
    requires k in clients
    ensures k in Final(clients, requests) && Final(clients, requests)[k] == clients[k]
    decreases |requests|
  {
    if |requests| > 0 {
      var g := GetOrCreate(clients, requests[0].0, Done(requests[0].1)).value;
      FinalKeepsEntries(g.clients, requests[1..], k);
    }
  }

  /** Construction happens at most once per key: a request builds exactly
      when its key was neither present at the start nor asked for by an
      earlier request, and every caller of a key gets the same client, the
      one left in the map. */
  lemma {:induction false} BuildOncePerKey<K, V>(clients: map<K, V>, requests: seq<(K, V)>)
    ensures var outs := Serve(clients, requests);
      forall i | 0 <= i < |requests| ::
        && (outs[i].built <==> requests[i].0 !in clients && forall j | 0 <= j < i :: requests[j].0 != requests[i].0)
        && requests[i].0 in Final(clients, requests)
        && outs[i].client == Final(clients, requests)[requests[i].0]
    decreases |requests|
  {
    if |requests| > 0 {
      var g := GetOrCreate(clients, requests[0].0, Done(requests[0].1)).value;
      var rest := requests[1..];
      var outs := Serve(clients, requests);
      BuildOncePerKey(g.clients, rest);
      FinalKeepsEntries(g.clients, rest, requests[0].0);
      assert outs[0] == g;
      forall i | 1 <= i < |requests|
        ensures outs[i].built <==> requests[i].0 !in clients && forall j | 0 <= j < i :: requests[j].0 != requests[i].0
      {
        assert outs[i] == Serve(g.clients, rest)[i - 1];
        assert requests[i] == rest[i - 1];
        assert forall j | 0 <= j < i - 1 :: rest[j] == requests[j + 1];
        if requests[i].0 != requests[0].0 {
          assert requests[i].0 in g.clients <==> requests[i].0 in clients;
        }
      }
      forall i | 1 <= i < |requests|
        ensures requests[i].0 in Final(clients, requests)
        ensures outs[i].client == Final(clients, requests)[requests[i].0]
      {
        assert outs[i] == Serve(g.clients, rest)[i - 1];
        assert requests[i] == rest[i - 1];
      }
    }
  }
}

=== FILE: log_hooks.dfy ===
/**
  The pure parts of sys/log.go: trimming a source path to its package-relative
  suffix, collecting the caller frames of a log entry, the levels each hook
  fires on, the error-notice gate of the line hook, and the name of the daily
  log file.

  The call stack is an input sequence of frames; the clock is an input date.
 */
module LogHooks {
  import opened Wrappers
  import opened Text
  import opened Config

  // ---------------------------------------------------------------------
  // getCaller

  /** The scan of getCaller from index `i` down to 1, having seen `n` slashes
      above `i`: at the second slash the path is cut after it. */
  function ScanFrom(file: string, i: int, n: nat): string
    requires -1 <= i < |file|
    decreases i + 1
  {
    if i <= 0 then file
    else if file[i] == '/' && n + 1 >= 2 then file[i + 1..]
    else ScanFrom(file, i - 1, if file[i] == '/' then n + 1 else n)
  }

  /** The file name getCaller reports for a frame's full path. */
  function PackagePath(file: string): string
  {
    ScanFrom(file, |file| - 1, 0)
  }

  /** Slashes the scan can see: those at indices 1 and above. */
  function Slashes(file: string): nat
  {
    if |file| == 0 then 0 else Count(file[1..], '/')
  }

  lemma {:induction false} ScanFromCharacterized(file: string, i: int, n: nat)
    requires 0 <= i < |file| && n == Count(file[i + 1..], '/') && n < 2
    ensures Slashes(file) < 2 ==> ScanFrom(file, i, n) == file
    ensures Slashes(file) >= 2 ==> exists j | 1 <= j < |file| ::
      && file[j] == '/'
      && ScanFrom(file, i, n) == file[j + 1..]
      && Count(file[j + 1..], '/') == 1
    decreases i
  {
    if i == 0 {
      assert file[1..] == file[i + 1..];
    } else {
      assert file[i..] == [file[i]] + file[i + 1..];
      CountAppend([file[i]], file[i + 1..], '/');
      assert file[1..] == file[1..i] + file[i..];
      CountAppend(file[1..i], file[i..], '/');
      if file[i] == '/' && n + 1 >= 2 {
        assert Count(file[i..], '/') == 2;
      } else {
        ScanFromCharacterized(file, i - 1, Count(file[i..], '/'));
      }
    }
  }

  /** A path with fewer than two slashes past its first character is kept;
      otherwise it becomes the part after the second slash from the right, a
      proper suffix that keeps exactly one slash. */
  lemma PackagePathCharacterized(file: string)
    ensures Slashes(file) < 2 ==> PackagePath(file) == file
    ensures Slashes(file) >= 2 ==> exists j | 1 <= j < |file| ::
      && file[j] == '/'
      && PackagePath(file) == file[j + 1..]
      && Count(PackagePath(file), '/') == 1
  {
    if |file| > 0 {
      assert file[|file|..] == [];
      ScanFromCharacterized(file, |file| - 1, 0);
    }
  }

  /** A frame of the call stack as runtime.Caller reports it. */
  datatype Frame = Frame(file: string, line: int)

  /** getCaller(k): the trimmed path and line of frame k, or ("", 0) when
      there is no such frame. */
  function GetCaller(stack: seq<Frame>, k: int): (r: (string, int))
    ensures !(0 <= k < |stack|) ==> r == ("", 0)
    ensures 0 <= k < |stack| ==> r == (PackagePath(stack[k].file), stack[k].line)
  {
    if 0 <= k < |stack| then (PackagePath(stack[k].file), stack[k].line) else ("", 0)
  }

  // ---------------------------------------------------------------------
  // findCaller

  const FrameCount: nat := 11

  /** A frame from the logging machinery or the framework's own packages,
      checked in the order "logrus", "log", "sys", "runtime", "datasource",
      "task". */
  predicate Skipped(file: string)
  {
    || HasPrefix(file, "logrus") || HasPrefix(file, "log") || HasPrefix(file, "sys")
    || HasPrefix(file, "runtime") || HasPrefix(file, "datasource") || HasPrefix(file, "task")
  }

  /** How a kept frame is appended. */
  function Render(file: string, line: int, lineNew: bool): string
  {
    (if lineNew then " | file: " else " file: ") + file + ":" + IntToDecimal(line)
  }

  /** What frame j contributes: nothing when it is skipped, otherwise its rendering. */
  function Piece(stack: seq<Frame>, j: int, lineNew: bool): string
  {
    var caller := GetCaller(stack, j);
    if Skipped(caller.0) then "" else Render(caller.0, caller.1, lineNew)
  }

  /** The frames skip .. skip+k-1 that are kept, rendered and concatenated in order. */
  function Rendered(stack: seq<Frame>, skip: int, lineNew: bool, k: nat): string
  {
    if k == 0 then ""
    else
      Rendered(stack, skip, lineNew, k - 1) + Piece(stack, skip + k - 1, lineNew)
  }

  /** findCaller: walks exactly FrameCount frames from `skip`. */
  method FindCaller(stack: seq<Frame>, skip: int, lineNew: bool) returns (rs: string)
    ensures rs == Rendered(stack, skip, lineNew, FrameCount)
  {
    rs := "";
    var i := 0;
    while i < FrameCount
      invariant 0 <= i <= FrameCount
      invariant rs == Rendered(stack, skip, lineNew, i)
    {
      rs := AppendFrame(stack, skip + i, lineNew, rs);
      RenderedStep(stack, skip, lineNew, i);
      i := i + 1;
    }
  }

  /** Rendering one more frame appends that frame's piece. */
  lemma RenderedStep(stack: seq<Frame>, skip: int, lineNew: bool, k: nat)
    ensures Rendered(stack, skip, lineNew, k + 1) == Rendered(stack, skip, lineNew, k) + Piece(stack, skip + k, lineNew)
  {
  }

  /** One step of findCaller's loop: frame j is appended unless it is skipped. */
  method AppendFrame(stack: seq<Frame>, j: int, lineNew: bool, rs: string) returns (rs': string)
    ensures rs' == rs + Piece(stack, j, lineNew)
  {
    rs' := rs;
    var caller := GetCaller(stack, j);
    if !Skipped(caller.0) {
      rs' := rs' + Render(caller.0, caller.1, lineNew);
    }
  }

  /** Only the frames skip .. skip+k-1 matter: stacks that report the same
      caller there render the same. */
  lemma {:induction false} RenderedWindow(s1: seq<Frame>, s2: seq<Frame>, skip: int, lineNew: bool, k: nat)
    requires forall j | skip <= j < skip + k :: GetCaller(s1, j) == GetCaller(s2, j)
    ensures Rendered(s1, skip, lineNew, k) == Rendered(s2, skip, lineNew, k)
  {
    if k > 0 {
      RenderedWindow(s1, s2, skip, lineNew, k - 1);
      assert GetCaller(s1, skip + k - 1) == GetCaller(s2, skip + k - 1);
    }
  }

  /** When every frame in the window is skipped the result is empty; when a
      frame is kept its rendering ends the result of the window up to it. */
  lemma {:induction false} RenderedEmptyWhenAllSkipped(stack: seq<Frame>, skip: int, lineNew: bool, k: nat)
    requires forall j | skip <= j < skip + k :: Skipped(GetCaller(stack, j).0)
    ensures Rendered(stack, skip, lineNew, k) == ""
  {
    if k > 0 {
      RenderedEmptyWhenAllSkipped(stack, skip, lineNew, k - 1);
    }
  }

  /** A missing frame is reported as ("", 0), which no prefix filters: it is
      kept and rendered as an empty file at line 0. */
  lemma MissingFrameIsKept(stack: seq<Frame>, skip: int, lineNew: bool, k: nat)
    requires k > 0 && !(0 <= skip + k - 1 < |stack|)
    ensures Rendered(stack, skip, lineNew, k) == Rendered(stack, skip, lineNew, k - 1) + Render("", 0, lineNew)
  {
    assert !Skipped("");
  }

  // ---------------------------------------------------------------------
  // Hook levels

  datatype Level = PanicLevel | FatalLevel | ErrorLevel | WarnLevel | InfoLevel | DebugLevel | TraceLevel

  /** lineHook fires on error and above. */
  function LineHookLevels(): (r: seq<Level>)
    ensures |r| == 3
    ensures forall l :: l in r <==> l in {ErrorLevel, FatalLevel, PanicLevel}
  {
    [ErrorLevel, FatalLevel, PanicLevel]
  }

  /** LogHook fires on every level, each listed once. */
  function LogHookLevels(): (r: seq<Level>)
    ensures |r| == 7
    ensures forall i, j | 0 <= i < j < |r| :: r[i] != r[j]
  {
    [PanicLevel, FatalLevel, ErrorLevel, WarnLevel, InfoLevel, DebugLevel, TraceLevel]
  }

  lemma LogHookCoversAll(l: Level)
    ensures l in LogHookLevels()
  {
    match l
    case PanicLevel => assert LogHookLevels()[0] == l;
    case FatalLevel => assert LogHookLevels()[1] == l;
    case ErrorLevel => assert LogHookLevels()[2] == l;
    case WarnLevel => assert LogHookLevels()[3] == l;
    case InfoLevel => assert LogHookLevels()[4] == l;
    case DebugLevel => assert LogHookLevels()[5] == l;
    case TraceLevel => assert LogHookLevels()[6] == l;
  }

  // ---------------------------------------------------------------------
  // lineHook.Fire

  /** An LPUSH of `value` onto the list `key`. */
  datatype Push = Push(key: string, value: string)

  const NoticeKey: string := "ErrNoticeRdsKey"

  /** lineHook.Fire: pushes the tagged JSON message onto the notice list only
      when the app document names one; `logMsg` is the JSON encoding of the
      entry. Reading the app document panics when it is nil. */
  function Fire(app: Viper, logMsg: string): (r: Outcome<Option<Push>>)
    ensures r.Panic? <==> app.None?
    ensures r.Done? ==> (r.value.Some? <==> GetString(app, NoticeKey).value != "")
    ensures r.Done? && r.value.Some? ==>
      && r.value.value.key == GetString(app, NoticeKey).value
      && HasPrefix(r.value.value.value, "【" + GetString(app, "service_name").value + "】")
      && HasSuffix(r.value.value.value, logMsg)
      && |r.value.value.value| == |"【" + GetString(app, "service_name").value + "】"| + |logMsg|
  {
    if app.None? then Panic("GetString on a nil viper")
    else
      var key := GetString(app, NoticeKey).value;
      if key == "" then Done(None)
      else Done(Some(Push(key, "【" + GetString(app, "service_name").value + "】" + logMsg)))
  }

  /** The pushed text is the service tag followed by the entry unchanged:
      cutting the tag off gives the entry back, so two different entries are
      never pushed as the same text. */
  lemma FireKeepsMessage(app: Viper, logMsg: string, other: string)
    requires Fire(app, logMsg).Done? && Fire(app, logMsg).value.Some?
    ensures var tag := "【" + GetString(app, "service_name").value + "】";
      Fire(app, logMsg).value.value.value[|tag|..] == logMsg
    ensures other != logMsg ==> Fire(app, other) != Fire(app, logMsg)
  {
    var tag := "【" + GetString(app, "service_name").value + "】";
    var v := Fire(app, logMsg).value.value.value;
    assert v[|tag|..] == v[|v| - |logMsg|..];
    if Fire(app, other) == Fire(app, logMsg) {
      var w := Fire(app, other).value.value.value;
      assert w[|tag|..] == w[|w| - |other|..];
    }
  }

  // ---------------------------------------------------------------------
  // The daily log file

  datatype Date = Date(year: nat, month: nat, day: nat)

  /** newLogFile's name: "print_" then the date as YYYYMMDD, then ".log". */
  function LogFileName(d: Date): string
  {
    "print_" + PadZero(NatToDecimal(d.year), 4) + PadZero(NatToDecimal(d.month), 2)
      + PadZero(NatToDecimal(d.day), 2) + ".log"
  }

  /** Reads a daily log file name back into its date. */
  function ParseLogFileName(name: string): Option<Date>
  {
    if && |name| == 18 && HasPrefix(name, "print_") && HasSuffix(name, ".log")
       && AllDigits(name[6..10]) && AllDigits(name[10..12]) && AllDigits(name[12..14])
    then
      Some(Date(DecimalValue(name[6..10]), DecimalValue(name[10..12]), DecimalValue(name[12..14])))
    else None
  }

  lemma PaddedValue(n: nat, w: nat)
    requires w >= 1 && n < Pow10(w)
    ensures |PadZero(NatToDecimal(n), w)| == w
    ensures AllDigits(PadZero(NatToDecimal(n), w)) && DecimalValue(PadZero(NatToDecimal(n), w)) == n
  {
    DecimalWidth(n, w);
    DecimalRoundTrip(n);
    PadZeroValue(NatToDecimal(n), w);
  }

  /** Every date with a four-digit year and two-digit month and day names a
      distinct file: the name reads back as the date. */
  lemma LogFileNameRoundTrip(d: Date)
    requires d.year < 10000 && d.month < 100 && d.day < 100
    ensures ParseLogFileName(LogFileName(d)) == Some(d)
  {
    var y, m, dd := PadZero(NatToDecimal(d.year), 4), PadZero(NatToDecimal(d.month), 2), PadZero(NatToDecimal(d.day), 2);
    assert Pow10(2) == 100 && Pow10(4) == 10000;
    PaddedValue(d.year, 4);
    PaddedValue(d.month, 2);
    PaddedValue(d.day, 2);
    var name := LogFileName(d);
    assert name == "print_" + y + m + dd + ".log";
    FieldsAt("print_", y, m, dd, ".log");
    assert HasPrefix(name, "print_") && HasSuffix(name, ".log");
    assert AllDigits(name[6..10]) && AllDigits(name[10..12]) && AllDigits(name[12..14]);
    assert DecimalValue(name[6..10]) == d.year;
    assert DecimalValue(name[10..12]) == d.month;
    assert DecimalValue(name[12..14]) == d.day;
  }

  lemma FieldsAt(a: string, y: string, m: string, dd: string, e: string)
    requires |a| == 6 && |y| == 4 && |m| == 2 && |dd| == 2 && |e| == 4
    ensures var name := a + y + m + dd + e;
      && |name| == 18 && name[..6] == a && name[14..] == e
      && name[6..10] == y && name[10..12] == m && name[12..14] == dd
  {
  }

  /** LogHook.Fire's directory: the app document's log_path followed by its
      service_name; reading them panics when the app document is nil. */
  function PathInfo(app: Viper): (r: Outcome<string>)
    ensures r.Panic? <==> app.None?
    ensures r.Done? ==>
      && HasPrefix(r.value, GetString(app, "log_path").value)
      && HasSuffix(r.value, GetString(app, "service_name").value)
      && |r.value| == |GetString(app, "log_path").value| + |GetString(app, "service_name").value|
  {
    if app.None? then Panic("GetString on a nil viper")
    else Done(GetString(app, "log_path").value + GetString(app, "service_name").value)
  }

  /** The directory with its leading "./" elements removed, as path.Clean
      removes them. */
  function DropDotPrefix(dir: string): (r: string)
    ensures !HasPrefix(r, "./")
    ensures HasSuffix(dir, r)
    ensures !HasPrefix(dir, "./") ==> r == dir
    decreases |dir|
  {
    if HasPrefix(dir, "./") then DropDotPrefix(dir[2..]) else dir
  }

  /** "./" repeated n times. */
  function DotSlashes(n: nat): string
  {
    if n == 0 then "" else "./" + DotSlashes(n - 1)
  }

  /** How many leading "./" elements the directory has. */
  function DotSlashCount(dir: string): nat
    decreases |dir|
  {
    if HasPrefix(dir, "./") then 1 + DotSlashCount(dir[2..]) else 0
  }

  /** What is removed is exactly the run of leading "./" elements. */
  lemma {:induction false} DropDotPrefixRemovesDotSlashes(dir: string)
    ensures dir == DotSlashes(DotSlashCount(dir)) + DropDotPrefix(dir)
    decreases |dir|
  {
    if HasPrefix(dir, "./") {
      var rest := dir[2..];
      DropDotPrefixRemovesDotSlashes(rest);
      assert DotSlashes(DotSlashCount(dir)) == "./" + DotSlashes(DotSlashCount(rest));
      assert dir == "./" + rest;
    }
  }

  /** path.Join of the directory and the file name, for a directory that is
      clean once its leading "./" elements are gone: the name alone when what
      is left is "" or ".", otherwise that directory and the name with one
      slash between them. */
  function LogFilePath(pathInfo: string, d: Date): (p: string)
    ensures HasSuffix(p, LogFileName(d))
    ensures var q := DropDotPrefix(pathInfo);
      q == "" || q == "." ==> p == LogFileName(d)
    ensures var q := DropDotPrefix(pathInfo);
      q != "" && q != "." ==>
        && |p| > |LogFileName(d)|
        && HasPrefix(p, q) && p[|p| - |LogFileName(d)| - 1] == '/'
        && |p| == |q| + (if HasSuffix(q, "/") then 0 else 1) + |LogFileName(d)|
  {
    JoinName(DropDotPrefix(pathInfo), LogFileName(d))
  }

  /** path.Join of a directory that has no leading "./" and a file name. */
  function JoinName(q: string, name: string): (p: string)
    ensures HasSuffix(p, name)
    ensures q == "" || q == "." ==> p == name
    ensures q != "" && q != "." ==>
        && |p| > |name|
        && HasPrefix(p, q) && p[|p| - |name| - 1] == '/'
        && |p| == |q| + (if HasSuffix(q, "/") then 0 else 1) + |name|
  {
    if q == "" || q == "." then name
    else if HasSuffix(q, "/") then q[..|q| - 1] + "/" + name
    else q + "/" + name
  }

  /** A directory read from a log_path such as "./logs/" loses its leading
      "./", as path.Join("./logs/svc", name) gives "logs/svc/" + name. */
  lemma LeadingDotDropped(d: Date)
    ensures LogFilePath("./logs/svc", d) == "logs/svc/" + LogFileName(d)
  {
    var dir := "./logs/svc";
    var q := "logs/svc";
    assert dir[..2] == "./" && dir[2..] == q;
    assert q[..2] != "./" by { assert q[0] == 'l'; }
    assert DropDotPrefix(q) == q;
    assert DropDotPrefix(dir) == q;
    assert q[|q| - 1] == 'c';
    assert !HasSuffix(q, "/");
  }

  /** A prefix of a prefix is a prefix. */
  lemma PrefixOfPrefix(p: string, dir: string, logPath: string)
    requires HasPrefix(p, dir) && HasPrefix(dir, logPath)
    ensures HasPrefix(p, logPath)
  {
    assert p[..|logPath|] == p[..|dir|][..|logPath|];
  }

  /** The file name ends every log file path, whatever the directory. */
  lemma LogFileNameEndsPath(dir: string, d: Date)
    requires d.year < 10000 && d.month < 100 && d.day < 100
    ensures var p := LogFilePath(dir, d);
      |p| >= 18 && p[|p| - 18..] == LogFileName(d)
  {
    LogFileNameRoundTrip(d);
  }

  /** Under a directory that starts with logPath, the day's file starts with
      logPath too, unless the directory is "." or starts with "./", which
      joining drops; and its last 18 characters read back as the day. */
  lemma LogFileUnder(dir: string, logPath: string, d: Date)
    requires HasPrefix(dir, logPath) && d.year < 10000 && d.month < 100 && d.day < 100
    ensures var p := LogFilePath(dir, d);
      && (dir != "." && !HasPrefix(dir, "./") ==> HasPrefix(p, logPath))
      && |p| >= 18
      && ParseLogFileName(p[|p| - 18..]) == Some(d)
  {
    var p := LogFilePath(dir, d);
    LogFileNameEndsPath(dir, d);
    LogFileNameRoundTrip(d);
    assert ParseLogFileName(p[|p| - 18..]) == Some(d);
    LogFilePathKeepsPrefix(dir, logPath, d);
  }

  /** Joining a name keeps every prefix of the directory, except a lone "."
      or a leading "./", which path.Join drops. */
  lemma LogFilePathKeepsPrefix(dir: string, logPath: string, d: Date)
    requires HasPrefix(dir, logPath)
    ensures dir != "." && !HasPrefix(dir, "./") ==> HasPrefix(LogFilePath(dir, d), logPath)
    ensures dir == "." ==> LogFilePath(dir, d) == LogFileName(d)
    ensures HasPrefix(dir, "./") ==> LogFilePath(dir, d) == LogFilePath(dir[2..], d)
  {
    if HasPrefix(dir, "./") {
    } else if dir != "" && dir != "." {
      PrefixOfPrefix(LogFilePath(dir, d), dir, logPath);
    } else if dir == "" {
      assert LogFilePath(dir, d)[..0] == logPath;
    }
  }

  /** The day's log file lies under the configured log path (with a leading
      "./" dropped, and in the working directory when the log directory is
      "."), and its name reads back as the day it was opened for. */
  lemma LogFileLocatedByDate(app: Viper, d: Date)
    requires app.Some? && d.year < 10000 && d.month < 100 && d.day < 100
    ensures var p := LogFilePath(PathInfo(app).value, d);
      && (PathInfo(app).value != "." && !HasPrefix(PathInfo(app).value, "./") ==>
            HasPrefix(p, GetString(app, "log_path").value))
      && |p| >= 18
      && ParseLogFileName(p[|p| - 18..]) == Some(d)
  {
    var dir, logPath := PathInfo(app).value, GetString(app, "log_path").value;
    assert HasPrefix(dir, logPath);
    LogFileUnder(dir, logPath, d);
    var p := LogFilePath(dir, d);
    assert dir != "." && !HasPrefix(dir, "./") ==> HasPrefix(p, logPath);
    assert |p| >= 18 && ParseLogFileName(p[|p| - 18..]) == Some(d);
  }
}

=== FILE: nacos_service.dfy ===
/**
  The pure parts of service/nacos_service.go: reading the "dataId:group"
  entries of nacos.group_data_ids into the remote document store, the change
  callback, the local address choice, the healthy-instance URI and the text
  parse into a configuration document.

  The Nacos SDK is abstract: whether the naming client and each config client
  can be created, and what fetching an entry's text returns, are parameters.
 */
module NacosService {
  import opened Wrappers
  import opened Text
  import opened Config
  import RemoteConfig
  import Environment

  // ---------------------------------------------------------------------
  // Entries of nacos.group_data_ids

  /** One well-formed entry: the data-id before the colon, the group after. */
  datatype Entry = Entry(dataId: string, group: string)

  /** An entry is used only when splitting it on ':' gives exactly two parts. */
  function ParseEntry(nv: string): (r: Option<Entry>)
    ensures r.Some? <==> Count(nv, ':') == 1
    ensures r.Some? ==> nv == r.value.dataId + ":" + r.value.group
    ensures r.Some? ==> ':' !in r.value.dataId && ':' !in r.value.group
  {
    var parts := Split(nv, ':');
    SplitLength(nv, ':');
    if |parts| != 2 then None
    else
      assert Join(parts, ':') == parts[0] + [':'] + parts[1];
      Some(Entry(parts[0], parts[1]))
  }

  /** A rendering of an entry is read back as that entry. */
  lemma ParseEntryRoundTrip(e: Entry)
    requires ':' !in e.dataId && ':' !in e.group
    ensures ParseEntry(e.dataId + ":" + e.group) == Some(e)
  {
    var parts := [e.dataId, e.group];
    assert Join(parts, ':') == e.dataId + ":" + e.group;
    SplitJoin(parts, ':');
  }

  /** The well-formed entries, in order. */
  function Parsed(entries: seq<string>): seq<Entry>
    decreases |entries|
  {
    if |entries| == 0 then []
    else
      var last := entries[|entries| - 1];
      Parsed(entries[..|entries| - 1]) + (if ParseEntry(last).Some? then [ParseEntry(last).value] else [])
  }

  // ---------------------------------------------------------------------
  // Loading the entries (the loop of InitClient)

  /** The remote texts loaded so far and the entries whose listener was installed. */
  datatype Loaded = Loaded(nacosConfig: map<string, string>, watched: seq<Entry>)

  /** Where the loop is: still going, returned early because a config client
      could not be created, or panicked because an entry's text could not be
      fetched. */
  datatype Progress = Running(loaded: Loaded) | Stopped(loaded: Loaded) | Failed(dataId: string)

  /** One entry: a malformed one is skipped; a failed config client ends the
      loop; a failed fetch panics; otherwise the text is stored under the
      data-id and a listener installed. */
  function Step(l: Loaded, nv: string, clientOk: Entry -> bool, fetch: Entry -> Option<string>): Progress
  {
    match ParseEntry(nv)
    case None => Running(l)
    case Some(e) =>
      if !clientOk(e) then Stopped(l)
      else match fetch(e)
        case None => Failed(e.dataId)
        case Some(data) => Running(Loaded(l.nacosConfig[e.dataId := data], l.watched + [e]))
  }

  /** The loop over `entries`, starting from the fresh empty store. */
  function Load(entries: seq<string>, clientOk: Entry -> bool, fetch: Entry -> Option<string>): Progress
    decreases |entries|
  {
    if |entries| == 0 then Running(Loaded(map[], []))
    else match Load(entries[..|entries| - 1], clientOk, fetch)
      case Running(l) => Step(l, entries[|entries| - 1], clientOk, fetch)
      case other => other
  }

  predicate Good(e: Entry, clientOk: Entry -> bool, fetch: Entry -> Option<string>)
  {
    clientOk(e) && fetch(e).Some?
  }

  /** Every watched data-id is loaded, and each loaded data-id holds the text
      fetched for its last watched entry. */
  predicate LatestWins(l: Loaded, fetch: Entry -> Option<string>)
  {
    && (forall i | 0 <= i < |l.watched| :: l.watched[i].dataId in l.nacosConfig)
    && (forall d | d in l.nacosConfig :: exists i | 0 <= i < |l.watched| ::
          && l.watched[i].dataId == d
          && fetch(l.watched[i]) == Some(l.nacosConfig[d])
          && forall j | i < j < |l.watched| :: l.watched[j].dataId != d)
  }

  lemma LatestWinsStep(l: Loaded, e: Entry, data: string, fetch: Entry -> Option<string>)
    requires LatestWins(l, fetch) && fetch(e) == Some(data)
    ensures LatestWins(Loaded(l.nacosConfig[e.dataId := data], l.watched + [e]), fetch)
  {
    var l' := Loaded(l.nacosConfig[e.dataId := data], l.watched + [e]);
    forall d | d in l'.nacosConfig
      ensures exists i | 0 <= i < |l'.watched| ::
        && l'.watched[i].dataId == d
        && fetch(l'.watched[i]) == Some(l'.nacosConfig[d])
        && forall j | i < j < |l'.watched| :: l'.watched[j].dataId != d
    {
      if d == e.dataId {
        assert l'.watched[|l.watched|] == e;
      } else {
        var i :| 0 <= i < |l.watched| && l.watched[i].dataId == d && fetch(l.watched[i]) == Some(l.nacosConfig[d])
                 && forall j | i < j < |l.watched| :: l.watched[j].dataId != d;
        assert l'.watched[i] == l.watched[i];
      }
    }
  }

  /** What the loop leaves for `entries`, with P the well-formed ones: when
      it is still running it has watched exactly P; when it returned early it
      watched a proper prefix of P and the next entry's config client failed;
      when it did not panic every watched entry succeeded and the last entry
      per data-id wins; when it panicked, every entry of P before some k
      succeeded and entry k's fetch failed, naming k's data-id. */
  predicate Characterized(entries: seq<string>, clientOk: Entry -> bool, fetch: Entry -> Option<string>)
  {
    var r, p := Load(entries, clientOk, fetch), Parsed(entries);
    && (r.Running? ==> r.loaded.watched == p)
    && (r.Stopped? ==> |r.loaded.watched| < |p| && r.loaded.watched == p[..|r.loaded.watched|] && !clientOk(p[|r.loaded.watched|]))
    && (!r.Failed? ==> forall i | 0 <= i < |r.loaded.watched| :: Good(r.loaded.watched[i], clientOk, fetch))
    && (!r.Failed? ==> LatestWins(r.loaded, fetch))
    && (r.Failed? ==> exists k | 0 <= k < |p| ::
          && (forall i | 0 <= i < k :: Good(p[i], clientOk, fetch))
          && clientOk(p[k]) && fetch(p[k]).None? && r.dataId == p[k].dataId)
  }

  /** The step from the entries before the last one to all of them, when the
      loop was still running. */
  lemma CharacterizedAfterRunning(entries: seq<string>, l: Loaded, clientOk: Entry -> bool, fetch: Entry -> Option<string>)
    requires |entries| > 0
    requires Characterized(entries[..|entries| - 1], clientOk, fetch)
    requires Load(entries[..|entries| - 1], clientOk, fetch) == Running(l)
    ensures Characterized(entries, clientOk, fetch)
  {
    var prefix := entries[..|entries| - 1];
    var last := entries[|entries| - 1];
    var p0, p := Parsed(prefix), Parsed(entries);
    if ParseEntry(last).Some? {
      var e := ParseEntry(last).value;
      assert p == p0 + [e];
      if clientOk(e) && fetch(e).None? {
        assert forall i | 0 <= i < |p0| :: p[i] == l.watched[i] && Good(p[i], clientOk, fetch);
        assert p[|p0|] == e;
      } else if clientOk(e) {
        LatestWinsStep(l, e, fetch(e).value, fetch);
      }
    }
  }

  /** The same step when the loop had already stopped or panicked. */
  lemma CharacterizedAfterHalt(entries: seq<string>, clientOk: Entry -> bool, fetch: Entry -> Option<string>)
    requires |entries| > 0
    requires Characterized(entries[..|entries| - 1], clientOk, fetch)
    requires !Load(entries[..|entries| - 1], clientOk, fetch).Running?
    ensures Characterized(entries, clientOk, fetch)
  {
    var prefix := entries[..|entries| - 1];
    var p0, p := Parsed(prefix), Parsed(entries);
    assert p[..|p0|] == p0;
    match Load(prefix, clientOk, fetch)
    case Stopped(l) =>
    case Failed(d) =>
      var k :| 0 <= k < |p0| && (forall i | 0 <= i < k :: Good(p0[i], clientOk, fetch))
               && clientOk(p0[k]) && fetch(p0[k]).None? && d == p0[k].dataId;
      assert p[k] == p0[k] && forall i | 0 <= i < k :: p[i] == p0[i];
  }

  /** What the loop leaves, entry by entry (see Characterized): it runs
      through every well-formed entry when all succeed, halts at the first
      that fails, and keeps the last entry per data-id. */
  lemma {:induction false} LoadCharacterized(entries: seq<string>, clientOk: Entry -> bool, fetch: Entry -> Option<string>)
    ensures Characterized(entries, clientOk, fetch)
    decreases |entries|
  {
    if |entries| > 0 {
      var prefix := entries[..|entries| - 1];
      LoadCharacterized(prefix, clientOk, fetch);
      match Load(prefix, clientOk, fetch)
      case Running(l) => CharacterizedAfterRunning(entries, l, clientOk, fetch);
      case _ => CharacterizedAfterHalt(entries, clientOk, fetch);
    }
  }

  /** Malformed entries are skipped without effect. */
  lemma LoadSkipsMalformed(entries: seq<string>, nv: string, clientOk: Entry -> bool, fetch: Entry -> Option<string>)
    requires ParseEntry(nv).None?
    ensures Load(entries + [nv], clientOk, fetch) == Load(entries, clientOk, fetch)
  {
    assert (entries + [nv])[..|entries|] == entries;
  }

  /** Once the loop has stopped or failed, later entries change nothing. */
  lemma {:induction false} LoadHalts(entries: seq<string>, k: nat, clientOk: Entry -> bool, fetch: Entry -> Option<string>)
    requires k <= |entries| && !Load(entries[..k], clientOk, fetch).Running?
    ensures Load(entries, clientOk, fetch) == Load(entries[..k], clientOk, fetch)
    decreases |entries|
  {
    if k < |entries| {
      var prefix := entries[..|entries| - 1];
      assert prefix[..k] == entries[..k];
      LoadHalts(prefix, k, clientOk, fetch);
    } else {
      assert entries[..k] == entries;
    }
  }

  /** InitClient's outcome: a failed fetch is a panic; otherwise the loaded store. */
  function Finish(p: Progress): Outcome<Loaded>
  {
    match p
    case Failed(d) => Panic("NewInitConfig error: " + d)
    case Running(l) => Done(l)
    case Stopped(l) => Done(l)
  }

  /** InitClient: reads the app document (panicking when it is nil), creates
      the naming client (panicking when that fails), then resets the remote
      store and loads the entries of nacos.group_data_ids in order. */
  method InitClient(app: Viper, namingOk: bool, entries: seq<string>,
                    clientOk: Entry -> bool, fetch: Entry -> Option<string>) returns (r: Outcome<Loaded>)
    ensures app.None? ==> r.Panic?
    ensures app.Some? && !namingOk ==> r.Panic?
    ensures app.Some? && namingOk ==> r == Finish(Load(entries, clientOk, fetch))
  {
    if app.None? {
      return Panic("nacos.namespace_id read on a nil viper");
    }
    if !namingOk {
      return Panic("init nacos error");
    }
    var loaded := Loaded(map[], []);
    var i := 0;
    while i < |entries|
      invariant 0 <= i <= |entries|
      invariant Load(entries[..i], clientOk, fetch) == Running(loaded)
    {
      assert entries[..i + 1][..i] == entries[..i];
      var step := Step(loaded, entries[i], clientOk, fetch);
      if !step.Running? {
        LoadHalts(entries, i + 1, clientOk, fetch);
        return Finish(step);
      }
      loaded := step.loaded;
      i := i + 1;
    }
    assert entries[..i] == entries;
    return Done(loaded);
  }

  // ---------------------------------------------------------------------
  // The change callback

  /** OnChange: evicts the cached document for the data-id, then stores the
      new text, so the next lookup parses it afresh. */
  function OnChange(c: Configuration, nacosConfig: map<string, string>, dataId: string, data: string):
    (r: (Configuration, map<string, string>))
    ensures dataId !in r.0.vipers && r.0.paths == c.paths
    ensures forall k | k != dataId :: (k in r.0.vipers <==> k in c.vipers)
    ensures forall k | k != dataId && k in c.vipers :: r.0.vipers[k] == c.vipers[k]
    ensures r.1.Keys == nacosConfig.Keys + {dataId} && r.1[dataId] == data
    ensures forall k | k != dataId && k in nacosConfig :: r.1[k] == nacosConfig[k]
  {
    (ResetCfgKey(c, dataId), nacosConfig[dataId := data])
  }

  /** After a change, looking the data-id up returns the parse of the new
      text, never the document cached from the old one. */
  lemma OnChangeThenLookup(c: Configuration, nacosConfig: map<string, string>, dataId: string, data: string,
                           env: Environment.Env, fs: FileSystem, parse: RemoteConfig.TomlParser)
    requires dataId != ""
    ensures var (c', nacos') := OnChange(c, nacosConfig, dataId, data);
      RemoteConfig.Nacos(c', nacos', [dataId], env, fs, parse).value.viper == parse(data)
  {
  }

  // ---------------------------------------------------------------------
  // The local address

  type Byte = b: int | 0 <= b < 256

  /** An interface address: an IP network, or some other kind of address. */
  datatype Addr = IPNet(ip: seq<Byte>) | OtherAddr

  /** What listing the interface addresses yields. */
  datatype Interfaces = Addrs(list: seq<Addr>) | AddrsError(msg: string)

  /** net.IP.To4: a 4-byte address, or a 16-byte one in the IPv4-mapped range. */
  function To4(ip: seq<Byte>): (r: Option<seq<Byte>>)
    ensures r.Some? ==> |r.value| == 4
    ensures r.Some? <==> |ip| == 4 || (|ip| == 16 && V4InV6(ip))
  {
    if |ip| == 4 then Some(ip)
    else if |ip| == 16 && V4InV6(ip) then Some(ip[12..])
    else None
  }

  /** The ::ffff:0:0/96 prefix. */
  predicate V4InV6(ip: seq<Byte>)
    requires |ip| == 16
  {
    (forall i | 0 <= i < 10 :: ip[i] == 0) && ip[10] == 255 && ip[11] == 255
  }

  const IPv6Loopback: seq<Byte> := [0, 0, 0, 0, 0, 0, 0, 0, 0, 0, 0, 0, 0, 0, 0, 1]

  /** net.IP.IsLoopback: 127.0.0.0/8 for IPv4 addresses, ::1 otherwise. */
  predicate IsLoopback(ip: seq<Byte>)
  {
    match To4(ip)
    case Some(v4) => v4[0] == 127
    case None => ip == IPv6Loopback
  }

  /** An address GetLocalIp accepts: an IP network that is not loopback and is IPv4. */
  predicate Qualifies(a: Addr)
  {
    a.IPNet? && !IsLoopback(a.ip) && To4(a.ip).Some?
  }

  /** net.IP.String of an IPv4 address: four decimal bytes joined by dots. */
  function DottedQuad(b: seq<Byte>): string
    requires |b| == 4
  {
    Join([NatToDecimal(b[0]), NatToDecimal(b[1]), NatToDecimal(b[2]), NatToDecimal(b[3])], '.')
  }

  /** The dotted rendering reads back as the same four bytes. */
  lemma DottedQuadRoundTrip(b: seq<Byte>)
    requires |b| == 4
    ensures var parts := Split(DottedQuad(b), '.');
      |parts| == 4 && forall i | 0 <= i < 4 :: AllDigits(parts[i]) && DecimalValue(parts[i]) == b[i]
  {
    var parts := [NatToDecimal(b[0]), NatToDecimal(b[1]), NatToDecimal(b[2]), NatToDecimal(b[3])];
    forall i | 0 <= i < 4 ensures '.' !in parts[i] && DecimalValue(parts[i]) == b[i] {
      DecimalRoundTrip(b[i]);
      assert !IsDigit('.');
    }
    SplitJoin(parts, '.');
  }

  datatype IpResult = IpResult(ip: string, err: Option<string>)

  /** GetLocalIp: the first qualifying address in interface order, rendered
      as a dotted quad; "" with "no ip found" when none qualifies; "" with
      the listing's error when the listing fails. */
  method GetLocalIp(interfaces: Interfaces) returns (r: IpResult)
    ensures interfaces.AddrsError? ==> r == IpResult("", Some(interfaces.msg))
    ensures interfaces.Addrs? ==>
      (r.err.None? <==> exists i | 0 <= i < |interfaces.list| :: Qualifies(interfaces.list[i]))
    ensures interfaces.Addrs? && r.err.None? ==> exists i | 0 <= i < |interfaces.list| ::
      && Qualifies(interfaces.list[i])
      && (forall j | 0 <= j < i :: !Qualifies(interfaces.list[j]))
      && r.ip == DottedQuad(To4(interfaces.list[i].ip).value)
    ensures interfaces.Addrs? && r.err.Some? ==> r == IpResult("", Some("no ip found"))
  {
    if interfaces.AddrsError? {
      return IpResult("", Some(interfaces.msg));
    }
    var list := interfaces.list;
    var i := 0;
    while i < |list|
      invariant 0 <= i <= |list|
      invariant forall j | 0 <= j < i :: !Qualifies(list[j])
    {
      var a := list[i];
      if a.IPNet? && !IsLoopback(a.ip) {
        var v4 := To4(a.ip);
        if v4.Some? {
          return IpResult(DottedQuad(v4.value), None);
        }
      }
      i := i + 1;
    }
    return IpResult("", Some("no ip found"));
  }

  // ---------------------------------------------------------------------
  // The healthy-instance URI

  type Uint64 = n: int | 0 <= n < 0x1_0000_0000_0000_0000

  datatype Instance = Instance(ip: string, port: Uint64)

  /** What asking the naming client for one healthy instance yields. */
  datatype Selection = Healthy(instance: Instance) | SelectFailed(msg: string)

  datatype UriResult = UriResult(uri: string, err: Option<string>)

  /** GetUri: "http://{ip}:{port}{router}" for the selected instance, "" with
      the error when selection fails. The port appears in decimal and reads
      back as itself. */
  function GetUri(selection: Selection, router: string): (r: UriResult)
    ensures selection.SelectFailed? ==> r == UriResult("", Some(selection.msg))
    ensures selection.Healthy? ==>
      var head := "http://" + selection.instance.ip + ":";
      && r.err.None?
      && HasPrefix(r.uri, head) && HasSuffix(r.uri, router)
      && |head| + |router| < |r.uri|
      && AllDigits(r.uri[|head|..|r.uri| - |router|])
      && DecimalValue(r.uri[|head|..|r.uri| - |router|]) == selection.instance.port
      && r.uri == head + NatToDecimal(selection.instance.port) + router
  {
    match selection
    case SelectFailed(msg) => UriResult("", Some(msg))
    case Healthy(instance) =>
      var head := "http://" + instance.ip + ":";
      var port := NatToDecimal(instance.port);
      var uri := head + port + router;
      DecimalRoundTrip(instance.port);
      assert uri[|head|..|uri| - |router|] == port;
      UriResult(uri, None)
  }

  // ---------------------------------------------------------------------
  // Text to document

  /** viper ReadConfig of a text in a given config type. */
  type ConfigReader = (string, string) -> Option<Doc>

  /** A fresh viper after reading: never nil; empty when the text does not
      parse, in which case the error is reported alongside. */
  datatype ViperResult = ViperResult(vp: Doc, failed: bool)

  /** GetViper: reads `data` as type `ty` into a fresh viper. */
  function GetViper(data: string, ty: string, read: ConfigReader): (r: ViperResult)
    ensures !r.failed <==> read(data, ty).Some?
    ensures !r.failed ==> r.vp == read(data, ty).value
    ensures r.failed ==> r.vp == map[]
  {
    match read(data, ty)
    case Some(doc) => ViperResult(doc, false)
    case None => ViperResult(map[], true)
  }

  /** The TOML parser of the remote store, in terms of the reader. */
  function TomlOf(read: ConfigReader): RemoteConfig.TomlParser
  {
    data => read(data, "toml")
  }

  /** GetTomlViper: GetViper with type "toml". */
  function GetTomlViper(data: string, read: ConfigReader): (r: ViperResult)
    ensures !r.failed <==> TomlOf(read)(data).Some?
    ensures !r.failed ==> r.vp == TomlOf(read)(data).value
  {
    GetViper(data, "toml", read)
  }
}

=== FILE: redis_helper.dfy ===
/**
  The Redis client manager of sys/redis_helper.go: keyed connections built
  from a configuration table by deriving go-redis options.

  redis.NewClient is external; the client it returns is described by the
  options it was given. The ping made after construction only prints its
  outcome, so it is a parameter that the result does not depend on.
 */
module RedisHelper {
  import opened Wrappers
  import opened Text
  import opened Config
  import KeyedCache

  /** time.Second and time.Millisecond in nanoseconds. */
  const Second: int := 1_000_000_000
  const Millisecond: int := 1_000_000

  datatype RedisOptions = RedisOptions(
    addr: string,
    password: string,
    db: int64,
    poolSize: int64,
    minIdleConns: int64,
    connMaxIdleTime: int64,
    connMaxLifetime: int64,
    maxRetries: int64,
    minRetryBackoff: int64)

  /** The *redis.Client redis.NewClient returns for these options. */
  datatype RedisClient = RedisClient(options: RedisOptions)

  /** RedisConn: the pool and whether operations are logged. */
  datatype RedisConn = RedisConn(pool: RedisClient, showDebug: bool)

  datatype RedisManager = RedisManager(clients: map<string, RedisConn>)

  function NewRedisClientManager(): (m: RedisManager)
    ensures m.clients == map[]
  {
    RedisManager(map[])
  }

  /** ShowDebug: sets the logging flag and nothing else. */
  function ShowDebug(conn: RedisConn, b: bool): (r: RedisConn)
    ensures r.showDebug == b && r.pool == conn.pool
  {
    conn.(showDebug := b)
  }

  /** time.Duration(n) * unit, with Go's 64-bit wrap-around. */
  function Scale(n: int64, unit: int): (d: int64)
    ensures -0x8000_0000_0000_0000 <= n as int * unit < 0x8000_0000_0000_0000 ==> d as int == n as int * unit
  {
    WrapInt64(n as int * unit)
  }

  /** Every field the options literal reads has the type it is asserted to have. */
  predicate Typed(config: map<string, Value>)
  {
    && HasStr(config, "addr") && HasInt(config, "port") && HasStr(config, "password")
    && HasInt(config, "database") && HasInt(config, "pool_size") && HasInt(config, "min_idle_conns")
    && HasInt(config, "conn_max_idle_time") && HasInt(config, "conn_max_lifetime")
    && HasInt(config, "max_retries") && HasInt(config, "min_retry_backoff")
  }

  /** The options literal of NewInstance: the address is "addr:port", the
      idle time and lifetime are counted in seconds and the retry backoff in
      milliseconds. Each field is read by a type assertion, so a field of the
      wrong type panics. */
  function Options(config: map<string, Value>): (r: Outcome<RedisOptions>)
    ensures r.Done? <==> Typed(config)
    ensures r.Done? ==>
      && r.value.addr == config["addr"].s + ":" + IntToDecimal(config["port"].i as int)
      && r.value.password == config["password"].s
      && r.value.db == config["database"].i
      && r.value.poolSize == config["pool_size"].i
      && r.value.minIdleConns == config["min_idle_conns"].i
      && r.value.connMaxIdleTime == Scale(config["conn_max_idle_time"].i, Second)
      && r.value.connMaxLifetime == Scale(config["conn_max_lifetime"].i, Second)
      && r.value.maxRetries == config["max_retries"].i
      && r.value.minRetryBackoff == Scale(config["min_retry_backoff"].i, Millisecond)
  {
    if !Typed(config) then Panic("interface conversion in redis options")
    else
      Done(RedisOptions(
        config["addr"].s + ":" + IntToDecimal(config["port"].i as int),
        config["password"].s,
        config["database"].i,
        config["pool_size"].i,
        config["min_idle_conns"].i,
        Scale(config["conn_max_idle_time"].i, Second),
        Scale(config["conn_max_lifetime"].i, Second),
        config["max_retries"].i,
        Scale(config["min_retry_backoff"].i, Millisecond)))
  }

  /** NewInstance: a connection around a client for the derived options,
      with logging off, whatever the ping answered. */
  function NewInstance(config: map<string, Value>, pingOk: bool): (r: Outcome<RedisConn>)
    ensures r.Done? <==> Options(config).Done?
    ensures r.Done? ==> r.value.pool.options == Options(config).value && !r.value.showDebug
  {
    var options :- Options(config);
    Done(RedisConn(RedisClient(options), false))
  }

  /** Get: the stored connection on a hit, otherwise one built, stored and returned. */
  function Get(m: RedisManager, name: string, config: map<string, Value>, pingOk: bool): (r: Outcome<(RedisManager, RedisConn)>)
    ensures name in m.clients ==> r == Done((m, m.clients[name]))
    ensures name !in m.clients ==> (r.Panic? <==> Options(config).Panic?)
    ensures name !in m.clients && r.Done? ==>
      && r.value.1 == RedisConn(RedisClient(Options(config).value), false)
      && r.value.0.clients == m.clients[name := r.value.1]
  {
    var g :- KeyedCache.GetOrCreate(m.clients, name, NewInstance(config, pingOk));
    Done((RedisManager(g.clients), g.client))
  }

  /** The ping outcome never changes what is built. */
  lemma PingIgnored(config: map<string, Value>)
    ensures NewInstance(config, true) == NewInstance(config, false)
  {
  }

  /** Durations that fit in 64 bits are exact: seconds times 10^9 and
      milliseconds times 10^6 nanoseconds. */
  lemma DurationsExact(config: map<string, Value>)
    requires Options(config).Done?
    requires -9_223_372_036 <= config["conn_max_idle_time"].i as int <= 9_223_372_036
    requires -9_223_372_036_854 <= config["min_retry_backoff"].i as int <= 9_223_372_036_854
    ensures Options(config).value.connMaxIdleTime as int == config["conn_max_idle_time"].i as int * 1_000_000_000
    ensures Options(config).value.minRetryBackoff as int == config["min_retry_backoff"].i as int * 1_000_000
  {
  }

  /** A second Get of a name returns the same connection whatever the
      configuration passed. */
  lemma SecondGetSameConn(m: RedisManager, name: string, c1: map<string, Value>, c2: map<string, Value>, p1: bool, p2: bool)
    requires Get(m, name, c1, p1).Done?
    ensures var r := Get(m, name, c1, p1).value;
      Get(r.0, name, c2, p2) == Done((r.0, r.1))
  {
  }
}

=== FILE: remote_config.dfy ===
/**
  The remote override store: the raw text of each remote document, keyed by
  data-id (NacosConfig), and its parse, cached in the same name-to-document
  map the file resolver uses.

  sys/nacos.go works on the sys package's cache; the package-root nacos.go is
  a line-for-line copy working on the root package's own cache. Both share
  LookupRemote below; they differ only in where the default data-id is read from.
 */
module RemoteConfig {
  import opened Wrappers
  import opened Config
  import Environment

  /** Parses TOML text (viper ReadConfig with config type "toml"). */
  type TomlParser = string -> Option<Doc>

  /** The cache after a lookup and the document found (nil on failure). */
  datatype Lookup = Lookup(cache: map<string, Doc>, viper: Viper)

  /** The part after the name is chosen: an empty name or one without remote
      text gives nil; a cached document is returned as it is; otherwise the
      remote text is parsed and, only if that succeeds, cached. */
  function LookupRemote(cache: map<string, Doc>, nacosConfig: map<string, string>, name: string, parse: TomlParser): (r: Lookup)
    ensures name == "" || name !in nacosConfig ==> r == Lookup(cache, None)
    ensures r.viper.None? ==> r.cache == cache
    ensures r.viper.Some? ==> name != "" && name in nacosConfig && r.cache == cache[name := r.viper.value]
    ensures name != "" && name in nacosConfig && name in cache ==> r == Lookup(cache, Some(cache[name]))
    ensures name != "" && name in nacosConfig && name !in cache ==> r.viper == parse(nacosConfig[name])
  {
    if name == "" then Lookup(cache, None)
    else if name !in nacosConfig then Lookup(cache, None)
    else if name in cache then Lookup(cache, Some(cache[name]))
    else match parse(nacosConfig[name])
      case None => Lookup(cache, None)
      case Some(doc) => Lookup(cache[name := doc], Some(doc))
  }

  /** The data-id asked for: the first argument, or the default one. */
  function SelectName(files: seq<string>, defaultName: string): (name: string)
    ensures |files| > 0 ==> name == files[0]
    ensures |files| == 0 ==> name == defaultName
  {
    if |files| == 0 then defaultName else files[0]
  }

  const DefaultDataIdKey: string := "nacos.defaultDataId"

  /** sys Nacos(files...): with no argument the data-id is the app
      document's nacos.defaultDataId, read through Cfg("app") (which may
      resolve and cache "app", and panics if "app" cannot be resolved); the
      lookup then uses the shared cache. */
  function Nacos(c: Configuration, nacosConfig: map<string, string>, files: seq<string>,
                 env: Environment.Env, fs: FileSystem, parse: TomlParser): (r: Outcome<Resolved>)
    ensures |files| > 0 ==>
      var l := LookupRemote(c.vipers, nacosConfig, files[0], parse);
      r == Done(Resolved(c.(vipers := l.cache), l.viper))
    ensures |files| == 0 ==> (r.Panic? <==> Cfg(c, "app", env, fs).viper.None?)
    ensures |files| == 0 && Cfg(c, "app", env, fs).viper.Some? ==>
      var app := Cfg(c, "app", env, fs);
      var l := LookupRemote(app.config.vipers, nacosConfig, GetString(app.viper, DefaultDataIdKey).value, parse);
      r == Done(Resolved(app.config.(vipers := l.cache), l.viper))
    ensures r.Done? ==> r.value.config.paths == c.paths
    ensures r.Done? && r.value.viper.None? && |files| > 0 ==> r.value.config == c
  {
    var (c1, defaultName) :-
      if |files| == 0 then
        var app := Cfg(c, "app", env, fs);
        var n :- GetString(app.viper, DefaultDataIdKey);
        Done((app.config, n))
      else Done((c, ""));
    var name := SelectName(files, defaultName);
    var l := LookupRemote(c1.vipers, nacosConfig, name, parse);
    Done(Resolved(c1.(vipers := l.cache), l.viper))
  }

  /** Root-package Nacos(files...): the same rule over the root package's
      cache; `app` is what the root package's Cfg("app") returned. */
  function RootNacos(cache: map<string, Doc>, nacosConfig: map<string, string>, files: seq<string>,
                     app: Viper, parse: TomlParser): (r: Outcome<Lookup>)
    ensures |files| > 0 ==> r == Done(LookupRemote(cache, nacosConfig, files[0], parse))
    ensures |files| == 0 ==> (r.Panic? <==> app.None?)
    ensures |files| == 0 && app.Some? ==> r == Done(LookupRemote(cache, nacosConfig, GetString(app, DefaultDataIdKey).value, parse))
    ensures r.Done? && r.value.viper.None? ==> r.value.cache == cache
  {
    var defaultName :- if |files| == 0 then GetString(app, DefaultDataIdKey) else Done("");
    Done(LookupRemote(cache, nacosConfig, SelectName(files, defaultName), parse))
  }

  // ---------------------------------------------------------------------
  // Properties

  /** A successful lookup is cached: the second lookup of the same name
      returns the same document without parsing, whatever the parser. */
  lemma LookupCachesSuccess(cache: map<string, Doc>, nacosConfig: map<string, string>, name: string,
                            parse: TomlParser, parse': TomlParser)
    requires LookupRemote(cache, nacosConfig, name, parse).viper.Some?
    ensures var l := LookupRemote(cache, nacosConfig, name, parse);
      LookupRemote(l.cache, nacosConfig, name, parse') == l
  {
  }

  /** Because the cache is shared, a remote document cached under a name is
      also what the file resolver returns for that name. */
  lemma SharedCacheServesResolver(c: Configuration, nacosConfig: map<string, string>, name: string,
                                  env: Environment.Env, fs: FileSystem, parse: TomlParser)
    requires Nacos(c, nacosConfig, [name], env, fs, parse).Done?
    requires Nacos(c, nacosConfig, [name], env, fs, parse).value.viper.Some?
    ensures var r := Nacos(c, nacosConfig, [name], env, fs, parse).value;
      Cfg(r.config, name, env, fs).viper == r.viper
  {
  }
}

=== FILE: routing.dfy ===
/**
  The three entry points Gorm(names...), Elastic(names...) and Redis(names...)
  of sys/gorm.go, sys/elastic.go and sys/redis.go: choose the logical name,
  fetch its configuration table from the right source, derive the cache key
  and ask the kind's client manager.

  System is the process state they read and update; World is everything
  outside the process (files, the TOML parser, the hash of the JSON
  encoding of a table, and the client libraries).

  Two stages are involved. sys/elastic.go and the resolver (through
  sys/env.go) consult the default manager of the pkg/environment package,
  which sys.InitEnv sets; sys/gorm.go consults the default manager of the
  separate environment package. `env` is the first and `gormEnv` the second;
  the resolver always looks files up under `env`.
 */
module Routing {
  import opened Wrappers
  import opened Config
  import Environment
  import RemoteConfig
  import GormHelper
  import RedisHelper
  import ElasticHelper

  datatype System = System(
    env: Environment.Env,
    gormEnv: Environment.Env,
    config: Configuration,
    nacosConfig: map<string, string>,
    gorm: GormHelper.GormManager,
    es: ElasticHelper.EsManager,
    redis: RedisHelper.RedisManager)

  datatype World = World(
    fs: FileSystem,
    parse: RemoteConfig.TomlParser,
    digest: map<string, Value> -> string,
    gormDriver: GormHelper.GormDriver,
    esConnects: ElasticHelper.EsSettings -> bool,
    redisPingOk: bool)

  const RemoteDatabase: string := "database.toml"
  const LocalDatabase: string := "db"
  const DebugLevelKey: string := "MysqlDebugLevel"

  /** A logical name, the table configuring it and the state after reading both. */
  datatype Target = Target(config: Configuration, name: string, table: map<string, Value>)

  /** Cfg("app").GetString(key): panics when "app" cannot be resolved. */
  function AppString(c: Configuration, env: Environment.Env, key: string, w: World): (r: Outcome<(Configuration, string)>)
    ensures r.Panic? <==> Cfg(c, "app", env, w.fs).viper.None?
    ensures r.Done? ==> r.value == (Cfg(c, "app", env, w.fs).config, GetString(Cfg(c, "app", env, w.fs).viper, key).value)
    ensures r.Done? ==> Extends(c, r.value.0) && "app" in r.value.0.vipers
  {
    var app := Cfg(c, "app", env, w.fs);
    var s :- GetString(app.viper, key);
    Done((app.config, s))
  }

  /** Nacos("database.toml").GetStringMap(name). */
  function RemoteTable(c: Configuration, nacosConfig: map<string, string>, env: Environment.Env, name: string, w: World):
    (r: Outcome<(Configuration, map<string, Value>)>)
    ensures r.Panic? <==> RemoteConfig.LookupRemote(c.vipers, nacosConfig, RemoteDatabase, w.parse).viper.None?
    ensures r.Done? ==> r.value.1 == GetStringMap(RemoteConfig.LookupRemote(c.vipers, nacosConfig, RemoteDatabase, w.parse).viper, name).value
    ensures r.Done? ==> Extends(c, r.value.0) && RemoteDatabase in r.value.0.vipers
  {
    var n := RemoteConfig.Nacos(c, nacosConfig, [RemoteDatabase], env, w.fs, w.parse).value;
    var table :- GetStringMap(n.viper, name);
    Done((n.config, table))
  }

  /** Cfg("db").GetStringMap(name). */
  function LocalTable(c: Configuration, env: Environment.Env, name: string, w: World): (r: Outcome<(Configuration, map<string, Value>)>)
    ensures r.Panic? <==> Cfg(c, LocalDatabase, env, w.fs).viper.None?
    ensures r.Done? ==> r.value == (Cfg(c, LocalDatabase, env, w.fs).config, GetStringMap(Cfg(c, LocalDatabase, env, w.fs).viper, name).value)
    ensures r.Done? ==> Extends(c, r.value.0) && LocalDatabase in r.value.0.vipers
  {
    var d := Cfg(c, LocalDatabase, env, w.fs);
    var table :- GetStringMap(d.viper, name);
    Done((d.config, table))
  }

  /** The source routing of Gorm and Elastic: when `stage` is Development
      the local "db" document, falling back to the remote "database.toml"
      only when the local table is empty; in every other stage the remote
      document. Files are looked up under `env`. */
  function SourceConfig(c: Configuration, nacosConfig: map<string, string>, stage: Environment.Env, env: Environment.Env,
                        name: string, w: World): (r: Outcome<(Configuration, map<string, Value>)>)
    ensures stage != Environment.Development ==> r == RemoteTable(c, nacosConfig, env, name, w)
    ensures stage == Environment.Development && LocalTable(c, env, name, w).Panic? ==> r.Panic?
    ensures stage == Environment.Development && LocalTable(c, env, name, w).Done? ==>
      var local := LocalTable(c, env, name, w).value;
      r == if |local.1| > 0 then Done(local) else RemoteTable(local.0, nacosConfig, env, name, w)
    ensures r.Done? ==> Extends(c, r.value.0)
  {
    if Environment.Is(stage, Environment.Development) then
      var (c1, local) :- LocalTable(c, env, name, w);
      if |local| == 0 then RemoteTable(c1, nacosConfig, env, name, w) else Done((c1, local))
    else RemoteTable(c, nacosConfig, env, name, w)
  }

  /** The name (the first argument, else the app document's `defaultKey`,
      which is read, and may panic, even when an argument is given) and its
      routed table. */
  function Resolve(sys: System, names: seq<string>, defaultKey: string, stage: Environment.Env, w: World): (r: Outcome<Target>)
    ensures Cfg(sys.config, "app", sys.env, w.fs).viper.None? ==> r.Panic?
    ensures r.Done? && |names| > 0 ==> r.value.name == names[0]
    ensures r.Done? && |names| == 0 ==> r.value.name == AppString(sys.config, sys.env, defaultKey, w).value.1
    ensures r.Done? ==>
      SourceConfig(AppString(sys.config, sys.env, defaultKey, w).value.0, sys.nacosConfig, stage, sys.env, r.value.name, w)
        == Done((r.value.config, r.value.table))
    ensures r.Done? ==> Extends(sys.config, r.value.config)
  {
    var (c1, defaultName) :- AppString(sys.config, sys.env, defaultKey, w);
    var name := RemoteConfig.SelectName(names, defaultName);
    var (c2, table) :- SourceConfig(c1, sys.nacosConfig, stage, sys.env, name, w);
    Done(Target(c2, name, table))
  }

  /** The database cache key: the name followed by the hex MD5 of the JSON
      encoding of its table. */
  function GormKey(name: string, table: map<string, Value>, w: World): string
  {
    name + w.digest(table)
  }

  /** Gorm(names...): routes as Resolve with "default_db" and the environment
      package's stage, keys by GormKey,
      reads the live level from the default remote document (panicking if
      it is missing) and asks the database manager. */
  function Gorm(sys: System, names: seq<string>, w: World): (r: Outcome<(System, Option<GormHelper.GormDb>)>)
    ensures Resolve(sys, names, "default_db", sys.gormEnv, w).Panic? ==> r.Panic?
    ensures r.Done? ==>
      var t := Resolve(sys, names, "default_db", sys.gormEnv, w).value;
      var key := GormKey(t.name, t.table, w);
      && key in r.value.0.gorm.clients
      && r.value.0.gorm.clients[key] == r.value.1
      && (key !in sys.gorm.clients ==> GormHelper.NewInstance(sys.gorm.debugLevel, t.table, w.gormDriver) == Done(r.value.1))
      && (key in sys.gorm.clients && sys.gorm.clients[key].Some? ==>
            r.value.1.Some? && r.value.1.value.dialector == sys.gorm.clients[key].value.dialector)
      && r.value.0.es == sys.es && r.value.0.redis == sys.redis
    ensures Resolve(sys, names, "default_db", sys.gormEnv, w).Done? ==>
      var t := Resolve(sys, names, "default_db", sys.gormEnv, w).value;
      var n := RemoteConfig.Nacos(t.config, sys.nacosConfig, [], sys.env, w.fs, w.parse);
      && (n.Panic? ==> r.Panic?)
      && (n.Done? && n.value.viper.None? ==> r.Panic?)
      && (n.Done? && GetInt(n.value.viper, DebugLevelKey).Done? ==>
            var g := GormHelper.Get(sys.gorm, GormKey(t.name, t.table, w), t.table,
                                    GetInt(n.value.viper, DebugLevelKey).value, w.gormDriver);
            && (r.Panic? <==> g.Panic?)
            && (g.Done? ==> r == Done((sys.(config := n.value.config, gorm := g.value.0), g.value.1))))
  {
    var t :- Resolve(sys, names, "default_db", sys.gormEnv, w);
    var key := GormKey(t.name, t.table, w);
    var n :- RemoteConfig.Nacos(t.config, sys.nacosConfig, [], sys.env, w.fs, w.parse);
    var live :- GetInt(n.viper, DebugLevelKey);
    var (g, client) :- GormHelper.Get(sys.gorm, key, t.table, live, w.gormDriver);
    Done((sys.(config := n.config, gorm := g), client))
  }

  /** Elastic(names...): routes as Resolve with "default_es" and the
      pkg/environment stage, and keys by the
      plain name, so a name already cached returns its client whatever its
      table is now. */
  function Elastic(sys: System, names: seq<string>, w: World): (r: Outcome<(System, Option<ElasticHelper.EsClient>)>)
    ensures Resolve(sys, names, "default_es", sys.env, w).Panic? ==> r.Panic?
    ensures Resolve(sys, names, "default_es", sys.env, w).Done? ==>
      var t := Resolve(sys, names, "default_es", sys.env, w).value;
      && (t.name in sys.es.clients ==> r == Done((sys.(config := t.config), sys.es.clients[t.name])))
      && (r.Done? ==> t.name in r.value.0.es.clients && r.value.0.es.clients[t.name] == r.value.1)
      && (r.Done? && t.name !in sys.es.clients ==> ElasticHelper.NewInstance(t.table, w.esConnects) == Done(r.value.1))
  {
    var t :- Resolve(sys, names, "default_es", sys.env, w);
    var (es, client) :- ElasticHelper.Get(sys.es, t.name, t.table, w.esConnects);
    Done((sys.(config := t.config, es := es), client))
  }

  /** Redis(names...): the name from "default_redis" unless given, the table
      always from the remote "database.toml" whatever the stage, the plain
      name as key, and the returned client is the connection's pool. */
  function Redis(sys: System, names: seq<string>, w: World): (r: Outcome<(System, RedisHelper.RedisClient)>)
    ensures AppString(sys.config, sys.env, "default_redis", w).Panic? ==> r.Panic?
    ensures AppString(sys.config, sys.env, "default_redis", w).Done? ==>
      var a := AppString(sys.config, sys.env, "default_redis", w).value;
      var name := RemoteConfig.SelectName(names, a.1);
      && (RemoteTable(a.0, sys.nacosConfig, sys.env, name, w).Panic? ==> r.Panic?)
      && (r.Done? ==>
            && name in r.value.0.redis.clients
            && r.value.1 == r.value.0.redis.clients[name].pool
            && (name in sys.redis.clients ==> r.value.1 == sys.redis.clients[name].pool)
            && (name !in sys.redis.clients ==>
                  && RemoteTable(a.0, sys.nacosConfig, sys.env, name, w).Done?
                  && RedisHelper.Options(RemoteTable(a.0, sys.nacosConfig, sys.env, name, w).value.1) == Done(r.value.1.options)))
  {
    var (c1, defaultName) :- AppString(sys.config, sys.env, "default_redis", w);
    var name := RemoteConfig.SelectName(names, defaultName);
    var (c2, table) :- RemoteTable(c1, sys.nacosConfig, sys.env, name, w);
    var (redis, conn) :- RedisHelper.Get(sys.redis, name, table, w.redisPingOk);
    Done((sys.(config := c2, redis := redis), conn.pool))
  }

  // ---------------------------------------------------------------------
  // Properties

  /** On a hit, Gorm leaves the database manager at the level read live from
      the default remote document, and when that level differs from the
      manager's the client returned is re-levelled to it; a miss keeps the
      manager's level. */
  lemma GormHitTakesLiveLevel(sys: System, names: seq<string>, w: World)
    requires Gorm(sys, names, w).Done?
    ensures
      var r := Gorm(sys, names, w).value;
      var t := Resolve(sys, names, "default_db", sys.gormEnv, w).value;
      var n := RemoteConfig.Nacos(t.config, sys.nacosConfig, [], sys.env, w.fs, w.parse).value;
      var live := GetInt(n.viper, DebugLevelKey).value;
      var key := GormKey(t.name, t.table, w);
      && (key in sys.gorm.clients ==> r.0.gorm.debugLevel == live)
      && (key in sys.gorm.clients && sys.gorm.debugLevel != live ==>
            r.1.Some? && r.1.value.logLevel == live)
      && (key !in sys.gorm.clients ==> r.0.gorm.debugLevel == sys.gorm.debugLevel)
  {
  }

  /** With fixed-width digests (an MD5 hex digest has 32 characters) two
      database keys are equal exactly when both the names and the digests
      are: a table with a different digest never reuses another table's
      client. */
  lemma GormKeyInjective(n1: string, n2: string, t1: map<string, Value>, t2: map<string, Value>, w: World)
    requires |w.digest(t1)| == 32 && |w.digest(t2)| == 32
    ensures GormKey(n1, t1, w) == GormKey(n2, t2, w) <==> n1 == n2 && w.digest(t1) == w.digest(t2)
  {
    var k1, k2 := GormKey(n1, t1, w), GormKey(n2, t2, w);
    if k1 == k2 {
      assert |n1| == |n2|;
      assert n1 == k1[..|n1|] && n2 == k2[..|n2|];
      assert w.digest(t1) == k1[|n1|..] && w.digest(t2) == k2[|n2|..];
    }
  }

  /** A remote table read once is read again, unchanged, from any state
      that kept the cache: the document is served from the cache. */
  lemma RemoteTableStable(c: Configuration, c': Configuration, nacosConfig: map<string, string>, env: Environment.Env,
                          name: string, w: World)
    requires RemoteTable(c, nacosConfig, env, name, w).Done?
    requires Extends(RemoteTable(c, nacosConfig, env, name, w).value.0, c')
    ensures RemoteTable(c', nacosConfig, env, name, w).Done?
    ensures RemoteTable(c', nacosConfig, env, name, w).value.1 == RemoteTable(c, nacosConfig, env, name, w).value.1
    ensures Extends(c', RemoteTable(c', nacosConfig, env, name, w).value.0)
  {
  }

  /** The same for the local "db" document. */
  lemma LocalTableStable(c: Configuration, c': Configuration, env: Environment.Env, name: string, w: World)
    requires LocalTable(c, env, name, w).Done?
    requires Extends(LocalTable(c, env, name, w).value.0, c')
    ensures LocalTable(c', env, name, w) == Done((c', LocalTable(c, env, name, w).value.1))
  {
  }

  /** The routed table, once read, is read again unchanged by any later
      state that kept the cache. */
  lemma SourceConfigStable(c: Configuration, c': Configuration, nacosConfig: map<string, string>,
                           stage: Environment.Env, env: Environment.Env, name: string, w: World)
    requires SourceConfig(c, nacosConfig, stage, env, name, w).Done?
    requires Extends(SourceConfig(c, nacosConfig, stage, env, name, w).value.0, c')
    ensures SourceConfig(c', nacosConfig, stage, env, name, w).Done?
    ensures SourceConfig(c', nacosConfig, stage, env, name, w).value.1 == SourceConfig(c, nacosConfig, stage, env, name, w).value.1
    ensures Extends(c', SourceConfig(c', nacosConfig, stage, env, name, w).value.0)
  {
    if stage == Environment.Development {
      var local := LocalTable(c, env, name, w).value;
      LocalTableStable(c, c', env, name, w);
      if |local.1| == 0 {
        RemoteTableStable(local.0, c', nacosConfig, env, name, w);
      }
    } else {
      RemoteTableStable(c, c', nacosConfig, env, name, w);
    }
  }

  /** A second Elastic call with the same arguments, from the state the
      first one left, returns the same client: the name resolves the same
      way from the cached documents and is then found in the manager. */
  lemma ElasticSecondCallHits(sys: System, names: seq<string>, w: World)
    requires Elastic(sys, names, w).Done?
    ensures var first := Elastic(sys, names, w).value;
      var second := Elastic(first.0, names, w);
      second.Done? && second.value.1 == first.1
  {
    var t := Resolve(sys, names, "default_es", sys.env, w).value;
    var a := AppString(sys.config, sys.env, "default_es", w).value;
    var sys1 := Elastic(sys, names, w).value.0;
    assert sys1.config == t.config;
    SourceConfigStable(a.0, t.config, sys.nacosConfig, sys.env, sys.env, t.name, w);
    var t2 := Resolve(sys1, names, "default_es", sys1.env, w);
    assert AppString(sys1.config, sys1.env, "default_es", w).value.1 == a.1;
    assert t2.Done? && t2.value.name == t.name;
  }

  /** Outside Development the local "db" document is never consulted: the
      table is the remote one whatever local document exists. */
  lemma NonDevelopmentIgnoresLocal(c: Configuration, nacosConfig: map<string, string>, stage: Environment.Env,
                                   env: Environment.Env, name: string, w: World, fs': FileSystem)
    requires stage != Environment.Development
    ensures SourceConfig(c, nacosConfig, stage, env, name, w) == SourceConfig(c, nacosConfig, stage, env, name, w.(fs := fs'))
  {
  }
}

=== FILE: text.dfy ===
/**
  String helpers that stand for the Go standard-library calls the modelled
  code makes: strings.Split with a one-character separator, strings.Contains,
  strings.HasPrefix, strings.Replace(s, old, new, -1) for a one-character
  `old`, and decimal rendering of integers (strconv / fmt "%d").

  Strings are sequences of characters (runes); the byte-level view Go uses
  coincides with it for the ASCII separators involved.
 */
module Text {

  newtype int64 = x: int | -0x8000_0000_0000_0000 <= x < 0x8000_0000_0000_0000

  const Int64Modulus: int := 0x1_0000_0000_0000_0000

  /** Two's-complement truncation of an integer to 64 bits, as Go's int64
      arithmetic does on overflow. */
  function WrapInt64(x: int): (r: int64)
    ensures -0x8000_0000_0000_0000 <= x < 0x8000_0000_0000_0000 ==> r as int == x
    ensures (r as int - x) % Int64Modulus == 0
  {
    var m := (x + 0x8000_0000_0000_0000) % Int64Modulus;
    (m - 0x8000_0000_0000_0000) as int64
  }

  // ---------------------------------------------------------------------
  // Counting, prefixes and substrings

  /** Number of occurrences of `c` in `s`. */
  function Count(s: string, c: char): nat
  {
    if |s| == 0 then 0 else (if s[0] == c then 1 else 0) + Count(s[1..], c)
  }

  lemma {:induction false} CountZero(s: string, c: char)
    ensures Count(s, c) == 0 <==> c !in s
  {
    if |s| > 0 {
      CountZero(s[1..], c);
      assert s == [s[0]] + s[1..];
    }
  }

  lemma {:induction false} CountAppend(a: string, b: string, c: char)
    ensures Count(a + b, c) == Count(a, c) + Count(b, c)
  {
    if |a| == 0 {
      assert a + b == b;
    } else {
      assert (a + b)[1..] == a[1..] + b;
      CountAppend(a[1..], b, c);
    }
  }

  predicate HasPrefix(s: string, prefix: string)
  {
    |prefix| <= |s| && s[..|prefix|] == prefix
  }

  predicate HasSuffix(s: string, suffix: string)
  {
    |suffix| <= |s| && s[|s| - |suffix|..] == suffix
  }

  /** `sub` occurs in `s` starting at index `i`. */
  predicate OccursAt(s: string, sub: string, i: nat)
  {
    i + |sub| <= |s| && forall j | 0 <= j < |sub| :: s[i + j] == sub[j]
  }

  /** strings.Contains */
  predicate Contains(s: string, sub: string)
  {
    exists i: nat | i <= |s| :: OccursAt(s, sub, i)
  }

  // ---------------------------------------------------------------------
  // Split and Join on a single-character separator

  /** Index of the first `c` in `s`. */
  function IndexOf(s: string, c: char): (i: nat)
    requires c in s
    ensures i < |s| && s[i] == c && c !in s[..i]
  {
    if s[0] == c then 0 else 1 + IndexOf(s[1..], c)
  }

  /** The first occurrence is the one with no earlier occurrence. */
  lemma IndexOfFirst(s: string, c: char, k: nat)
    requires k < |s| && s[k] == c && c !in s[..k]
    ensures IndexOf(s, c) == k
  {
    var i := IndexOf(s, c);
    assert forall j | 0 <= j < k :: s[j] != c by {
      forall j | 0 <= j < k ensures s[j] != c { assert s[..k][j] == s[j]; }
    }
    assert forall j | 0 <= j < i :: s[j] != c by {
      forall j | 0 <= j < i ensures s[j] != c { assert s[..i][j] == s[j]; }
    }
  }

  /** Inverse of Split: the parts glued back together with `sep`. */
  function Join(parts: seq<string>, sep: char): string
    requires |parts| >= 1
  {
    if |parts| == 1 then parts[0] else parts[0] + [sep] + Join(parts[1..], sep)
  }

  /** strings.Split(s, string(sep)): the maximal separator-free pieces of `s`,
      in order; the empty string splits into one empty piece. */
  function Split(s: string, sep: char): (parts: seq<string>)
    ensures |parts| >= 1
    ensures forall i | 0 <= i < |parts| :: sep !in parts[i]
    ensures Join(parts, sep) == s
    decreases |s|
  {
    if sep !in s then [s]
    else
      var i := IndexOf(s, sep);
      var rest := Split(s[i + 1..], sep);
      assert s == s[..i] + [sep] + s[i + 1..];
      [s[..i]] + rest
  }

  /** Split is the only way to cut a string into separator-free parts: joining
      such parts and splitting again gives them back. */
  lemma {:induction false} SplitJoin(parts: seq<string>, sep: char)
    requires |parts| >= 1
    requires forall i | 0 <= i < |parts| :: sep !in parts[i]
    ensures Split(Join(parts, sep), sep) == parts
  {
    var s := Join(parts, sep);
    if |parts| == 1 {
      assert sep !in parts[0];
    } else {
      var head, tail := parts[0], Join(parts[1..], sep);
      var k := |head|;
      assert s == head + [sep] + tail;
      assert s[k] == sep;
      assert s[..k] == head;
      assert s[k + 1..] == tail;
      IndexOfFirst(s, sep, k);
      assert Split(s, sep) == [head] + Split(tail, sep);
      SplitJoin(parts[1..], sep);
      assert parts == [head] + parts[1..];
    }
  }

  /** Splitting yields one more piece than there are separators. */
  lemma {:induction false} SplitLength(s: string, sep: char)
    ensures |Split(s, sep)| == Count(s, sep) + 1
    decreases |s|
  {
    if sep !in s {
      CountZero(s, sep);
    } else {
      var i := IndexOf(s, sep);
      assert s == s[..i] + ([sep] + s[i + 1..]);
      CountAppend(s[..i], [sep] + s[i + 1..], sep);
      CountZero(s[..i], sep);
      assert ([sep] + s[i + 1..])[1..] == s[i + 1..];
      SplitLength(s[i + 1..], sep);
    }
  }

  // ---------------------------------------------------------------------
  // Character replacement

  /** strings.Replace(s, string(target), string(rep), -1). */
  function ReplaceAll(s: string, target: char, rep: char): (r: string)
    ensures |r| == |s|
    ensures forall i | 0 <= i < |s| :: r[i] == (if s[i] == target then rep else s[i])
  {
    if |s| == 0 then [] else [if s[0] == target then rep else s[0]] + ReplaceAll(s[1..], target, rep)
  }

  // ---------------------------------------------------------------------
  // Decimal rendering

  predicate IsDigit(c: char)
  {
    '0' <= c <= '9'
  }

  predicate AllDigits(s: string)
  {
    forall i | 0 <= i < |s| :: IsDigit(s[i])
  }

  function DigitChar(d: nat): (c: char)
    requires d < 10
    ensures IsDigit(c) && (c as int) - ('0' as int) == d
  {
    (('0' as int) + d) as char
  }

  /** The value of a string of decimal digits. */
  function DecimalValue(s: string): nat
    requires AllDigits(s)
  {
    if |s| == 0 then 0
    else DecimalValue(s[..|s| - 1]) * 10 + ((s[|s| - 1] as int) - ('0' as int))
  }

  /** strconv.FormatUint / fmt "%d" for a non-negative number: its shortest
      decimal digit string. */
  function NatToDecimal(n: nat): (s: string)
    ensures |s| >= 1 && AllDigits(s)
    ensures s[0] == '0' ==> n == 0 && s == "0"
  {
    if n < 10 then [DigitChar(n)] else NatToDecimal(n / 10) + [DigitChar(n % 10)]
  }

  /** fmt "%d" / cast.ToString for a signed integer. */
  function IntToDecimal(i: int): (s: string)
    ensures |s| >= 1 && (s[0] == '-' <==> i < 0)
  {
    if i < 0 then "-" + NatToDecimal(-i) else NatToDecimal(i)
  }

  /** The signed rendering reads back as the number: the digits after an
      optional minus sign give its magnitude, with no leading zero except in
      "0" itself. */
  lemma IntToDecimalRoundTrip(i: int)
    ensures var s := IntToDecimal(i);
      && (i >= 0 ==> AllDigits(s) && DecimalValue(s) == i && (s[0] == '0' ==> s == "0"))
      && (i < 0 ==> |s| >= 2 && AllDigits(s[1..]) && DecimalValue(s[1..]) == -i && s[1] != '0')
  {
    if i < 0 {
      DecimalRoundTrip(-i);
      assert IntToDecimal(i)[1..] == NatToDecimal(-i);
    } else {
      DecimalRoundTrip(i);
    }
  }

  /** Rendering a number in decimal and reading it back gives the number. */
  lemma {:induction false} DecimalRoundTrip(n: nat)
    ensures DecimalValue(NatToDecimal(n)) == n
  {
    if n >= 10 {
      var s := NatToDecimal(n);
      DecimalRoundTrip(n / 10);
      assert s[..|s| - 1] == NatToDecimal(n / 10);
    }
  }

  function Pow10(k: nat): (r: nat)
    ensures r >= 1
  {
    if k == 0 then 1 else 10 * Pow10(k - 1)
  }

  /** A number below 10^w has at most w decimal digits. */
  lemma {:induction false} DecimalWidth(n: nat, w: nat)
    requires w >= 1 && n < Pow10(w)
    ensures |NatToDecimal(n)| <= w
  {
    if n >= 10 {
      assert n / 10 < Pow10(w - 1);
      DecimalWidth(n / 10, w - 1);
    }
  }

  /** Leading zeros do not change the value of a digit string. */
  lemma {:induction false} DecimalLeadingZeros(z: string, s: string)
    requires forall i | 0 <= i < |z| :: z[i] == '0'
    requires AllDigits(s)
    ensures AllDigits(z + s) && DecimalValue(z + s) == DecimalValue(s)
    decreases |s|
  {
    if |s| == 0 {
      assert z + s == z;
      ZerosValue(z);
    } else {
      assert (z + s)[..|z + s| - 1] == z + s[..|s| - 1];
      DecimalLeadingZeros(z, s[..|s| - 1]);
    }
  }

  lemma {:induction false} ZerosValue(z: string)
    requires forall i | 0 <= i < |z| :: z[i] == '0'
    ensures AllDigits(z) && DecimalValue(z) == 0
  {
    if |z| > 0 {
      ZerosValue(z[..|z| - 1]);
    }
  }

  /** `s` left-padded with '0' to at least `width` characters. */
  function PadZero(s: string, width: nat): (r: string)
    ensures |r| == if |s| >= width then |s| else width
    ensures HasSuffix(r, s)
    ensures forall i | 0 <= i < |r| - |s| :: r[i] == '0'
  {
    if |s| >= width then s else seq(width - |s|, _ => '0') + s
  }

  /** Padding a digit string with zeros keeps its value. */
  lemma PadZeroValue(s: string, width: nat)
    requires AllDigits(s)
    ensures AllDigits(PadZero(s, width)) && DecimalValue(PadZero(s, width)) == DecimalValue(s)
  {
    if |s| < width {
      DecimalLeadingZeros(seq(width - |s|, _ => '0'), s);
    }
  }
}

=== FILE: wrappers.dfy ===
/**
  Failure-compatible wrappers shared by every module of the model.

  - Option<T> stands for a Go pointer or interface value that may be nil.
  - Outcome<T> separates a normal return from a Go run-time panic (a method
    call on a nil pointer, a failed type assertion). No code of the modelled
    system recovers from a panic, so a Panic is terminal: the state reached
    before it is not carried along.
 */
module Wrappers {

  datatype Option<+T> = None | Some(value: T) {

    predicate IsFailure() {
      None?
    }

    function PropagateFailure<U>(): Option<U>
      requires None?
    {
      None
    }

    function Extract(): T
      requires Some?
    {
      value
    }

    function GetOr(default: T): T {
      match this
      case Some(v) => v
      case None => default
    }
  }

  datatype Outcome<+T> = Done(value: T) | Panic(reason: string) {

    predicate IsFailure() {
      Panic?
    }

    function PropagateFailure<U>(): Outcome<U>
      requires Panic?
    {
      Panic(reason)
    }

    function Extract(): T
      requires Done?
    {
      value
    }
  }
}
